=== FILE: README.md ===
# Product catalog API: a Dafny model

This project models the core of a small product-catalog HTTP API. Demo users
own catalogs: named JSON documents with a description, an active flag and a
version. The API lists, reads, creates, updates and soft-deletes them. The
model covers the following parts:

- **Catalog service** (`CatalogService`). The operations take the
  `product_catalogs` table as a sequence of rows and return the table after
  them, or the message of the error the service throws. The store's case
  folding and sort-key order are an abstract `Collation`. The clock value
  `now` and the id an insert is given are inputs.
- **Authentication** (`AuthMiddleware`). Bearer-header parsing, resolving a
  verified subject to a demo user or an end user, the 401/403 guards, the
  `APIError` record and the error-envelope helper. The identity service's
  `getUser` call is an input function.
- **Error normalisation** (`ErrorMiddleware`). A total function from what a
  handler can throw to one error response, and the `withErrorHandling`
  wrapper.
- **Validation** (`CatalogSchemas`). The Zod schemas written as functions
  over decoded JSON. Each returns the validated value or the list of issues.
- **The `/api/catalogs` route** (`CatalogsRoute`). Method dispatch, then the
  GET and POST pipelines, wrapped in the error normaliser. A request is served
  against one snapshot of the world.

The support modules are:

- `Wrappers`: `Option` and `Result`.
- `Entities`: the catalog record, the command shapes and the membership tables.
- `Text`: JavaScript `split(' ')`, `includes` and `trim`, with their characterising lemmas.
- `Seqs`: filtering, a stable sort and the pagination window.

The main invariants are proved as lemmas over tables before and after each
operation:

- Ids stay unique.
- Active names stay unique per owner, except in the one case `EmptyRenameSkipsCheck` exhibits. This assumes the store does not fail on the duplicate-name lookup and then succeed on the write (see "Left out").
- Rows are never removed or re-keyed.
- Versions never decrease.
- A deleted row never comes back.

## Model

| member | source | states |
|---|---|---|
| `AuthMiddleware.ExtractBearerToken` | src/lib/middleware/auth.middleware.ts:28-39 | A token is returned only when the header is exactly `Bearer`, one space and a space-free token. |
| `AuthMiddleware.ExtractBearerTokenExact` | src/lib/middleware/auth.middleware.ts:28-39 | A header yields token `t` if and only if it is `"Bearer " + t` and `t` has no space; the scheme is case-sensitive, and `"Bearer "` yields the empty token. |
| `AuthMiddleware.ValidateToken` | src/lib/middleware/auth.middleware.ts:44-94 | A user is resolved if and only if the token verifies and the subject is active in one of the two tables. An active demo user wins over an end user and keeps the stored name. An end user's missing name becomes `''`. An error, no user or a throw gives none. |
| `AuthMiddleware.RequireAuth` | src/lib/middleware/auth.middleware.ts:99-121 | Fails with "Authorization header missing or invalid" exactly when the header yields no token or an empty one. For a non-empty token it succeeds exactly when the token resolves to an active user, and otherwise fails with "Invalid or expired token". Every failure is a 401 with no code. |
| `AuthMiddleware.MissingTokenNeverVerifies` | src/lib/middleware/auth.middleware.ts:103-108 | An absent, malformed or empty token fails with the missing-header 401, whatever the identity service would say. |
| `AuthMiddleware.UnknownSubjectUnauthorized` | src/lib/middleware/auth.middleware.ts:89-114 | A verified subject active in neither table gets 401 "Invalid or expired token". |
| `AuthMiddleware.DemoUserAccepted` | src/lib/middleware/auth.middleware.ts:28-137 | A header `Bearer <t>` whose non-empty, space-free token the identity service verifies for an active demo user passes the demo-user guard as that user, with the stored email and name. |
| `AuthMiddleware.EndUserAccepted` | src/lib/middleware/auth.middleware.ts:28-153 | The same for an active end user who is not a demo user, at the end-user guard; a missing name becomes `""`. |
| `AuthMiddleware.RequireDemoUser` | src/lib/middleware/auth.middleware.ts:126-137 | Succeeds if and only if authentication succeeds with a demo user, and then returns that user. An authentication failure passes through unchanged. Fails 403 exactly when an authenticated user of the other kind calls. No failure carries a code. |
| `AuthMiddleware.RequireEndUser` | src/lib/middleware/auth.middleware.ts:142-153 | Succeeds if and only if authentication succeeds with an end user, and then returns that user. An authentication failure passes through unchanged. Fails 403 exactly when an authenticated user of the other kind calls. No failure carries a code. |
| `AuthMiddleware.ErrorResponseRoundTrip` | src/lib/middleware/auth.middleware.ts:174-192 | The error envelope has the error's status. A client reads back the message, code and details unchanged. |
| `AuthMiddleware.CreateSuccessResponse` | src/lib/middleware/auth.middleware.ts:198-208 | The response carries the data as its body with the status given (200 unless the caller says otherwise). A data body never reads back as an error envelope. |
| `ErrorMiddleware.CommonErrorsDistinct` | src/lib/middleware/error.middleware.ts:170-178 | Every common error has a code, and no two share a status or a code. |
| `ErrorMiddleware.Details` | src/lib/middleware/error.middleware.ts:61-67 | The details keys are exactly the dot-joined paths of the issues. |
| `ErrorMiddleware.DetailsLastWins` | src/lib/middleware/error.middleware.ts:64-67 | Under a path key, the message kept is that of the last issue with that key. |
| `ErrorMiddleware.HandleValidationError` | src/lib/middleware/error.middleware.ts:61-72 | A 400 `VALIDATION_ERROR` envelope, "Validation failed", whose details map holds each issue's message under its dot-joined path. |
| `ErrorMiddleware.HandleGenericError` | src/lib/middleware/error.middleware.ts:78-102 | Ordered, case-sensitive substring tests keep the message: "not found" gives 404, else "already exists" gives 409, else "permission" or "unauthorized" gives 403. Anything else is 500 "Internal server error". |
| `ErrorMiddleware.HandleUnknownError` | src/lib/middleware/error.middleware.ts:107-111 | A 500 `UNKNOWN_ERROR` envelope, "An unexpected error occurred", with no details and nothing of the thrown value. |
| `ErrorMiddleware.HandleError` | src/lib/middleware/error.middleware.ts:32-56 | An APIError passes through unchanged. A validation failure gets the validation response, whose details are the issue map. Any other Error is classified by its message exactly as the generic handler does. A non-Error value gets the unknown-error response. Apart from an APIError, a 500 never exposes the thrown message, and every envelope carries the timestamp. Apart from an APIError, the status is always one of 400, 403, 404, 409 or 500. |
| `ErrorMiddleware.NormalisedCodesAgree` | src/lib/middleware/error.middleware.ts:69-111 | Every response the normaliser builds itself pairs its status and code as a common error does, except the 500 `UNKNOWN_ERROR`. |
| `ErrorMiddleware.ApiErrorBeforeGeneric` | src/lib/middleware/error.middleware.ts:42-52 | An APIError whose message says "not found" keeps its own status. The same message thrown as a plain Error becomes 404. |
| `ErrorMiddleware.WithErrorHandling` | src/lib/middleware/error.middleware.ts:151-164 | A returned response passes unchanged. A thrown value gets exactly the normaliser's response: an error envelope with the timestamp, keeping a thrown APIError's status. |
| `CatalogSchemas.CheckCount` | src/lib/validation/catalog.schemas.ts:15-18 | A count is accepted if and only if it is absent or an integer of at least 1, and at most 50 for `limit`. An absent count takes its default. |
| `CatalogSchemas.CheckOptionalString` | src/lib/validation/catalog.schemas.ts:24 | `search` is accepted if and only if it is absent or a string, and is kept as given. |
| `CatalogSchemas.CheckSort` | src/lib/validation/catalog.schemas.ts:25 | `sort` is accepted if and only if it is absent or one of the three column names; it defaults to `created_at`. |
| `CatalogSchemas.CheckOrder` | src/lib/validation/catalog.schemas.ts:26 | `order` is accepted if and only if it is absent, `asc` or `desc`; it defaults to `desc`. |
| `CatalogSchemas.ValidateListQuery` | src/lib/validation/catalog.schemas.ts:15-27 | Accepts a query if and only if no field fails its rule: page and limit absent or whole numbers of at least 1 (limit at most 50), search absent or a string, sort and order absent or one of their names. Present values are kept, with page and limit as the integers sent; absent ones default to 1, 50, `created_at` and `desc`. A rejection lists at least one issue. |
| `CatalogSchemas.QueryReportsEveryField` | src/lib/validation/catalog.schemas.ts:15-27 | A rejected query lists an issue under exactly the fields that fail. |
| `CatalogSchemas.CheckName` | src/lib/validation/catalog.schemas.ts:33-37 | A name is accepted if and only if it is a string of 1 to 255 characters before trimming; the value kept is the trimmed string. |
| `CatalogSchemas.CheckDescription` | src/lib/validation/catalog.schemas.ts:38-42 | A description is accepted if and only if it is absent, null or a string of at most 1000 characters; absent and null stay distinct. |
| `CatalogSchemas.CheckCatalogData` | src/lib/validation/catalog.schemas.ts:43-48 | Catalog data is accepted if and only if it is an object with at least one key. |
| `CatalogSchemas.CheckOptionalData` | src/lib/validation/catalog.schemas.ts:66 | On update, catalog data is accepted if and only if it is absent or any object, including an empty one. |
| `CatalogSchemas.CheckOptionalName` | src/lib/validation/catalog.schemas.ts:55-60 | On update, a name is accepted if and only if it is absent or fits the create bounds; absent stays absent. |
| `CatalogSchemas.ValidateCreateBody` | src/lib/validation/catalog.schemas.ts:32-49 | A body is accepted if and only if it is an object with no failing field. The output name is the trimmed input, and the data is the input's non-empty object. |
| `CatalogSchemas.CreateReportsEveryField` | src/lib/validation/catalog.schemas.ts:32-49 | A rejected object body lists an issue under exactly the fields that fail. |
| `CatalogSchemas.CreateDescriptionKept` | src/lib/validation/catalog.schemas.ts:38-42 | The validated description is absent exactly when the field is missing, null exactly when it is null, and otherwise the string sent. |
| `CatalogSchemas.WhitespaceNameAccepted` | src/lib/validation/catalog.schemas.ts:33-37 | A name of 1 to 255 whitespace characters passes the length checks and becomes the empty name. |
| `CatalogSchemas.ValidateUpdateBody` | src/lib/validation/catalog.schemas.ts:54-67 | A body is accepted if and only if it is an object with no failing field. Each field is absent in the output exactly when it is absent in the input. A present name is trimmed, a description is null exactly when null was sent and is otherwise the string sent, and data is the object sent. |
| `CatalogSchemas.UpdateReportsEveryField` | src/lib/validation/catalog.schemas.ts:54-67 | A rejected object body lists an issue under exactly the fields that fail. |
| `CatalogSchemas.ValidateCatalogIdParam` | src/lib/validation/catalog.schemas.ts:72-74 | `catalog_id` is accepted if and only if it is a string satisfying the UUID predicate; otherwise the issue is under `catalog_id`. |
| `CatalogSchemas.ValidateDemoUserId` | src/lib/validation/catalog.schemas.ts:79 | A demo user id is accepted if and only if it is a string satisfying the UUID predicate; otherwise there is one issue at the root. |
| `CatalogService.ArrangedExact` | src/lib/services/catalog.service.ts:30-39 | The rows a list query selects are exactly the caller's active rows, filtered by name only when the search is non-empty. |
| `CatalogService.ArrangedSorted` | src/lib/services/catalog.service.ts:42 | Under a coherent collation, the selected rows are in the requested ORDER BY order. |
| `CatalogService.PageSorted` | src/lib/services/catalog.service.ts:42-45 | Under a coherent collation, every page the listing returns is in the requested ORDER BY order. |
| `CatalogService.CeilDiv` | src/lib/services/catalog.service.ts:55 | The page count is the least number of pages of `limit` rows that hold all rows. |
| `CatalogService.GetCatalogs` | src/lib/services/catalog.service.ts:22-66 | The items are the ordered selection's positions from `(page-1)*limit`, at most `limit` of them, all the caller's and active. `total` counts the whole selection, the page count is its ceiling, and page and limit are echoed back. A store failure gives "Failed to fetch catalogs". |
| `CatalogService.PagePastEnd` | src/lib/services/catalog.service.ts:45-64 | A page beyond the ceiling of matching rows over the limit is empty, and its total is the number of matching rows, as on any other page. |
| `CatalogService.GetCatalogById` | src/lib/services/catalog.service.ts:71-91 | A returned row has this id and owner and is active. Otherwise the error is "Catalog not found", or the fetch failure when the store fails. |
| `CatalogService.GetCatalogByIdExact` | src/lib/services/catalog.service.ts:75-86 | With unique ids, get succeeds if and only if such a row exists, and returns that row. Foreign and inactive rows look missing. |
| `CatalogService.StoredDescription` | src/lib/services/catalog.service.ts:115 | An absent, null or empty description is stored as null; any other is stored as given. |
| `CatalogService.CreateCatalog` | src/lib/services/catalog.service.ts:96-128 | A success appends one active row at version 1 for the command's owner, name and data. Otherwise the error is the name conflict or an insert failure. The conflict is reported only when an active same-owner row has the name. |
| `CatalogService.CreateConflictExact` | src/lib/services/catalog.service.ts:98-108 | With active names unique, create conflicts if and only if an active row of the owner has exactly that name. |
| `CatalogService.UpdateCatalog` | src/lib/services/catalog.service.ts:133-184 | Inherits get-by-id's failure. Writes only the supplied fields and always refreshes `updated_at`. The version is one past the row's if and only if data is supplied. Its only other failure is the name conflict on a real rename. |
| `CatalogService.UpdateConflictExact` | src/lib/services/catalog.service.ts:141-154 | With active names unique, an update of a visible row conflicts if and only if it renames to a non-empty different name that another active row of the owner has. |
| `CatalogService.UpdateTouchesOneRow` | src/lib/services/catalog.service.ts:171-177 | With unique ids, only the row read is rewritten, to the returned row; every other row is unchanged. |
| `CatalogService.DeleteCatalog` | src/lib/services/catalog.service.ts:189-205 | Succeeds if and only if get-by-id does, and otherwise fails with its message. It keeps every row. Each targeted row changes only by becoming inactive with `updated_at` set to now; every other row is unchanged. |
| `CatalogService.DeleteTwiceNotFound` | src/lib/services/catalog.service.ts:191-200 | After a delete, get and a second delete both fail with "Catalog not found". |
| `CatalogService.DeleteFreesName` | src/lib/services/catalog.service.ts:98-108 | After a delete, the deleted row's name no longer blocks its owner from creating a catalog of that name. |
| `CatalogService.ValidateDemoUser` | src/lib/services/catalog.service.ts:210-223 | True if and only if the store answers and the id is an active demo user. |
| `CatalogService.CreateEvolves` | src/lib/services/catalog.service.ts:110-121 | Create only appends. It keeps ids unique and active names unique. |
| `CatalogService.UpdateEvolves` | src/lib/services/catalog.service.ts:156-177 | With unique ids, update keeps every row's id, owner and creation time, and never lowers a version or reactivates a row. |
| `CatalogService.UpdateKeepsNamesUnique` | src/lib/services/catalog.service.ts:141-161 | An update that does not rename to the empty string keeps active names unique per owner. |
| `CatalogService.EmptyRenameSkipsCheck` | src/lib/services/catalog.service.ts:141-161 | Renaming to `""` skips the duplicate check. A concrete table ends up with two active rows of one owner named `""`. |
| `CatalogService.DeleteEvolves` | src/lib/services/catalog.service.ts:193-200 | Delete keeps rows, ids, owners and versions. It keeps ids and active names unique. |
| `CatalogsRoute.HandleGet` | src/pages/api/catalogs/index.ts:21-33 | Nothing is written. An authentication failure is raised as is, and an invalid query is raised as a validation failure. With a valid caller and query, the answer is 200 with the service list when the store is up, and otherwise the fetch error. |
| `CatalogsRoute.PostAfterAuth` | src/pages/api/catalogs/index.ts:44-62 | A malformed body, an invalid body, a missing owner and a failed insert are each raised in that order, leaving the table unchanged, and none is an API error. Otherwise the answer is 201 with the created row, the table after the insert, and the row owned by the authenticated user. |
| `CatalogsRoute.HandlePost` | src/pages/api/catalogs/index.ts:39-63 | Authentication decides first. Its failure is raised as is; only after success is the body looked at. |
| `CatalogsRoute.Handler` | src/pages/api/catalogs/index.ts:69-83 | `GET` goes to the GET handler and `POST` to the POST handler. Any other method is answered 405 without touching the table. The only API errors raised are the guards' 401 and 403. |
| `CatalogsRoute.Serve` | src/pages/api/catalogs/index.ts:86-87 | Every response is the error normaliser applied to the handler's outcome, and the table is the handler's. Only a 201 to a POST changes the table, and only by appending the returned row owned by the caller. A 200 answers a GET with the caller's active rows. |
| `CatalogsRoute.ListedRowsOwned` | src/pages/api/catalogs/index.ts:23-32 | Every row a successful GET returns is an active row of the authenticated demo user. |
| `CatalogsRoute.OtherMethodsRejected` | src/pages/api/catalogs/index.ts:72-82 | Other methods get 405 with the bare `{error: "Method not allowed"}` body, with no code and no timestamp. |
| `CatalogsRoute.UnauthenticatedPost` | src/pages/api/catalogs/index.ts:41-46 | A POST that fails authentication gets 401, the same response whatever the body. |
| `CatalogsRoute.UnauthenticatedGet` | src/pages/api/catalogs/index.ts:21-23 | A GET that fails authentication gets the guard's 401 envelope, and nothing is written. |
| `CatalogsRoute.InvalidQueryRejected` | src/pages/api/catalogs/index.ts:26-27 | An authorised GET with an invalid query gets 400 `VALIDATION_ERROR` with the query issues as details, and nothing is written. |
| `CatalogsRoute.EndUserForbidden` | src/pages/api/catalogs/index.ts:21-41 | An authenticated end user gets 403 with no code on GET and POST. The answer does not depend on the catalog table. |
| `CatalogsRoute.InactiveOwnerNotFound` | src/pages/api/catalogs/index.ts:49-52 | A valid POST from a demo user whose owner re-check fails (the owner is inactive, or the store fails during the re-check) is answered 404 `NOT_FOUND` with "Demo user not found or inactive", and nothing is written. |
| `CatalogsRoute.NameTakenIsConflict` | src/lib/middleware/error.middleware.ts:78-90 | The service's name-conflict message contains "already exists" and not "not found", so the normaliser answers it 409 `CONFLICT` with the message kept. |
| `CatalogsRoute.DuplicateNameConflict` | src/lib/services/catalog.service.ts:97-108 | A valid POST from an active demo user, naming a catalog that an active catalog of theirs already has, is answered 409 `CONFLICT` with "Catalog with this name already exists", and nothing is written. |
| `CatalogsRoute.AuthorisedOwnerIsActive` | src/pages/api/catalogs/index.ts:41-52 | When authentication and the re-check see the same store, a caller who passed the demo-user guard always passes the re-check. |
| `CatalogsRoute.EmptyFieldsRejected` | src/pages/api/catalogs/index.ts:45-46 | An authenticated POST of `{name: "", catalog_data: {}}` gets 400 `VALIDATION_ERROR` with details under `name` and `catalog_data`. |
| `CatalogsRoute.DefaultListing` | src/pages/api/catalogs/index.ts:27-32 | A GET with no query parameters answers 200 with page 1, limit 50 and at most 50 rows, newest first under a coherent collation. |
| `CatalogsRoute.DemoUserListing` | src/pages/api/catalogs/index.ts:21-33 | A GET from an active demo user with a well-formed token and a valid query, with the store up, answers 200 with that user's page of the listing and writes nothing. |
| `CatalogsRoute.DemoUserCreates` | src/pages/api/catalogs/index.ts:39-63 | A POST from an active demo user with a valid body, where the name is free for that owner and the new id is unused, answers 201 with the inserted active version-1 row and appends exactly that row. |
| `Text.Includes` | src/lib/middleware/error.middleware.ts:80-92 | `includes` is true if and only if the substring occurs at some position, compared case-sensitively. |
| `Text.JoinSplit` | src/lib/middleware/auth.middleware.ts:33 | Joining the pieces of `split(' ')` with a space gives back the header. |
| `Text.SplitJoin` | src/lib/middleware/auth.middleware.ts:33-34 | Splitting a space-joined list of space-free parts gives back those parts. |
| `Text.TrimShape` | src/lib/validation/catalog.schemas.ts:37 | `trim` removes exactly the leading and trailing whitespace and keeps the middle. |
| `Seqs.FilterCounts` | src/lib/services/catalog.service.ts:33-39 | The WHERE filter keeps each passing row exactly as often as it occurs in the table, and no other row. |
| `Seqs.SortBySorted` | src/lib/services/catalog.service.ts:42 | Under a total preorder, the sort returns a sorted permutation of its input. |

## Left out

- Store access and the identity service are not modelled as I/O. The database client, the query builder and `auth.getUser` are replaced by:
  - the catalog table (a sequence of rows);
  - the membership tables;
  - an identity function from token to verification outcome;
  - a per-request `Backend` flag (`Up` or `Down(reason)`).

  A store failure becomes the service's "Failed to …: reason" error. src/db/supabase.client.ts is not part of this model.
- The route sees the store's health twice: `authDb` during authentication and `db` during the service's queries. Within one of these phases the model does not let the store fail on a later query after an earlier one succeeded. So "Failed to update catalog" and "Failed to delete catalog" never arise after a successful get-by-id.
- `CreateCatalog`, `UpdateCatalog` and `ValidateToken`: a lookup that fails followed by a query that succeeds within one phase is not modelled. In the source the duplicate-name lookups read only `data`, so a failed lookup counts as "no duplicate". If the insert or update after it succeeds, two active rows of one owner can share a name. Likewise, a failed `demo_users` lookup followed by a successful `end_users` lookup resolves a demo user as an end user, who then gets 403. The single store flag per phase rules these sequences out, so the name-uniqueness lemmas hold only for stores that fail consistently within a request.
- `console.error` logging, JSON serialisation, response headers and the stack-trace option are left out. A response is a status and a decoded body.
- Timestamps are the clock value `now`, passed in. `created_at` is the store's default in the source; the model sets it to `now` on insert.
- `CatalogService.GetCatalogs`: the sort comparator and the case folding of `ilike` are abstract (`Collation`). The wildcard characters `%` and `_` inside a search string are not interpreted. The order is promised only as a sorted permutation under a coherent collation; ties are not pinned down.
- `CatalogService.GetCatalogs`: a range past the end of the selection is taken as an empty page. PostgREST's range-error behaviour is not modelled.
- `CatalogService.UpdateCatalog`: the update statement's `.single()` is assumed to see exactly the row get-by-id returned. With unique ids that is the only row it can target.
- `CatalogSchemas.CheckCount`: `z.coerce.number` is not modelled. The input already carries the number `Number(x)` produced. Only the integer, minimum and maximum rules are checked, and Zod's exact default messages are approximated.
- `CatalogSchemas.ValidateCatalogIdParam`: the UUID regular expression is an input predicate `isUuid`.
- String lengths count Dafny characters. JavaScript counts UTF-16 code units, so characters outside the basic plane differ.
- The list query the route validates is an abstract input. Which URL parameters reach the schema is not modelled, and nothing is claimed about query strings reaching the service.
- The check-then-insert race between the duplicate-name lookup and the insert is left out: operations are atomic and sequential.
- The `[catalog_id]` routes are not modelled as routes. The update and delete operations, the update schema and the id schema they use are modelled above.
- The non-catalog types of src/types.ts are left out.

=== FILE: auth_middleware.dfy ===
/** Bearer-token extraction, user-kind resolution, the authentication
    guards, the `APIError` class and the JSON response helpers
    (src/lib/middleware/auth.middleware.ts). The identity service's
    `getUser(token)` call is an input: a function from token to its
    verification outcome. */
module AuthMiddleware {
  import opened Wrappers
  import opened Entities
  import Text

  datatype UserKind = DemoUser | EndUser

  datatype AuthenticatedUser = AuthenticatedUser(id: string, email: string, name: string, kind: UserKind)

  /** What the identity service's `getUser(token)` produced: a verified
      subject, an error result, a result without a user, or an exception. */
  datatype Verification = Verified(id: string) | Rejected | NoUser | Threw

  /** `APIError`: a message, the HTTP status to answer with and an optional machine code. */
  datatype ApiError = ApiError(message: string, statusCode: int, code: Option<string>)

  /** A response body as the client decodes it. `ErrorBody` is the error
      envelope of `createErrorResponse`; `PlainError` is the bare
      `{error}` object the routes send for an unknown method. */
  datatype Body =
    | ErrorBody(error: string, code: Option<string>, details: Option<map<string, string>>, timestamp: string)
    | PlainError(error: string)
    | CatalogBody(catalog: Catalog)
    | ListBody(list: CatalogList)

  datatype Response = Response(status: int, body: Body)

  const MissingCredentials := ApiError("Authorization header missing or invalid", 401, None)
  const InvalidToken := ApiError("Invalid or expired token", 401, None)
  const DemoUserRequired := ApiError("Demo user access required", 403, None)
  const EndUserRequired := ApiError("End user access required", 403, None)

  /** `extractBearerToken`: the token of an `Authorization` header of the
      exact form `Bearer <token>`. The header is split on every space, so
      it must hold exactly one, and the scheme is compared case-sensitively. */
  function ExtractBearerToken(header: Option<string>): (token: Option<string>)
    ensures token.Some? ==> header == Some("Bearer " + token.value) && ' ' !in token.value
  {
    if header.None? || header.value == "" then None
    else
      var parts := Text.Split(header.value, ' ');
      Text.JoinSplit(header.value, ' ');
      if |parts| != 2 || parts[0] != "Bearer" then None
      else
        assert parts[1..] == [parts[1]];
        assert Text.Join(parts, ' ') == parts[0] + [' '] + parts[1];
        assert "Bearer " == "Bearer" + [' '];
        Some(parts[1])
  }

  /** A header yields token `t` exactly when it is `"Bearer "` followed by a
      space-free `t`; in particular `"Bearer "` yields the empty token. */
  lemma ExtractBearerTokenExact(h: string, t: string)
    ensures ExtractBearerToken(Some(h)) == Some(t) <==> h == "Bearer " + t && ' ' !in t
  {
    if h == "Bearer " + t && ' ' !in t {
      var parts := ["Bearer", t];
      assert Text.Join(parts, ' ') == h;
      Text.SplitJoin(parts, ' ');
    }
  }

  /** `validateToken`: resolves a verification outcome to a user. An
      active demo user wins; otherwise an active end user, whose missing
      name becomes `''`; otherwise, or when the store cannot answer, none. */
  function ValidateToken(v: Verification, db: Backend, dir: Directory): (u: Option<AuthenticatedUser>)
    ensures u.Some? <==> db.Up? && v.Verified? && (ActiveDemoUser(dir, v.id) || ActiveEndUser(dir, v.id))
    ensures u.Some? ==> u.value.id == v.id && (u.value.kind == DemoUser <==> ActiveDemoUser(dir, v.id))
    ensures u.Some? && u.value.kind == DemoUser ==>
      u.value.email == dir.demoUsers[v.id].email && u.value.name == dir.demoUsers[v.id].name
    ensures u.Some? && u.value.kind == EndUser ==>
      u.value.email == dir.endUsers[v.id].email && u.value.name == dir.endUsers[v.id].name.GetOr("")
  {
    match v
    case Verified(id) =>
      if db.Up? && ActiveDemoUser(dir, id) then
        var row := dir.demoUsers[id];
        Some(AuthenticatedUser(id, row.email, row.name, DemoUser))
      else if db.Up? && ActiveEndUser(dir, id) then
        var row := dir.endUsers[id];
        Some(AuthenticatedUser(id, row.email, row.name.GetOr(""), EndUser))
      else None
    case _ => None
  }

  /** `requireAuth`: a missing, malformed or empty token fails before the
      identity service is asked; an unresolvable token fails next; both are 401. */
  function RequireAuth(header: Option<string>, identity: string -> Verification, db: Backend, dir: Directory)
    : (r: Result<AuthenticatedUser, ApiError>)
    ensures r.Failure? ==> r.error.statusCode == 401 && r.error.code.None?
    ensures r.Failure? ==> r.error == MissingCredentials || r.error == InvalidToken
    ensures r.Success? ==> exists t :: ExtractBearerToken(header) == Some(t) && t != "" && ValidateToken(identity(t), db, dir) == Some(r.value)
    ensures r == Failure(MissingCredentials) <==> ExtractBearerToken(header).None? || ExtractBearerToken(header) == Some("")
    ensures ExtractBearerToken(header).Some? && ExtractBearerToken(header).value != "" ==>
      (r.Success? <==> ValidateToken(identity(ExtractBearerToken(header).value), db, dir).Some?)
  {
    var token := ExtractBearerToken(header);
    if token.None? || token.value == "" then Failure(MissingCredentials)
    else
      match ValidateToken(identity(token.value), db, dir)
      case None => Failure(InvalidToken)
      case Some(user) => Success(user)
  }

  /** Without a usable token the outcome is fixed: the identity service
      is never consulted, so any two identity services give the same 401. */
  lemma MissingTokenNeverVerifies(header: Option<string>, id1: string -> Verification, id2: string -> Verification,
                                  db: Backend, dir: Directory)
    requires ExtractBearerToken(header).None? || ExtractBearerToken(header) == Some("")
    ensures RequireAuth(header, id1, db, dir) == RequireAuth(header, id2, db, dir) == Failure(MissingCredentials)
  {
  }

  /** A verified subject active in neither membership table gets the 401
      "Invalid or expired token", not a 403 or 404. */
  lemma UnknownSubjectUnauthorized(t: string, identity: string -> Verification, db: Backend, dir: Directory)
    requires t != "" && ' ' !in t
    requires identity(t).Verified?
    requires !ActiveDemoUser(dir, identity(t).id) && !ActiveEndUser(dir, identity(t).id)
    ensures RequireAuth(Some("Bearer " + t), identity, db, dir) == Failure(InvalidToken)
  {
    ExtractBearerTokenExact("Bearer " + t, t);
  }

  /** A well-formed bearer token that the identity service verifies for an
      active demo user passes the demo-user guard as that user, with the
      email and name of its membership row. */
  lemma DemoUserAccepted(t: string, identity: string -> Verification, db: Backend, dir: Directory)
    requires t != "" && ' ' !in t
    requires db.Up? && identity(t).Verified? && ActiveDemoUser(dir, identity(t).id)
    ensures var id := identity(t).id;
      RequireDemoUser(Some("Bearer " + t), identity, db, dir)
        == Success(AuthenticatedUser(id, dir.demoUsers[id].email, dir.demoUsers[id].name, DemoUser))
  {
    ExtractBearerTokenExact("Bearer " + t, t);
  }

  /** A well-formed bearer token that the identity service verifies for an
      active end user, who is not also a demo user, passes the end-user guard. */
  lemma EndUserAccepted(t: string, identity: string -> Verification, db: Backend, dir: Directory)
    requires t != "" && ' ' !in t
    requires db.Up? && identity(t).Verified?
    requires ActiveEndUser(dir, identity(t).id) && !ActiveDemoUser(dir, identity(t).id)
    ensures var id := identity(t).id;
      RequireEndUser(Some("Bearer " + t), identity, db, dir)
        == Success(AuthenticatedUser(id, dir.endUsers[id].email, dir.endUsers[id].name.GetOr(""), EndUser))
  {
    ExtractBearerTokenExact("Bearer " + t, t);
  }

  /** `requireDemoUser`: authentication, then 403 for any other kind. */
  function RequireDemoUser(header: Option<string>, identity: string -> Verification, db: Backend, dir: Directory)
    : (r: Result<AuthenticatedUser, ApiError>)
    ensures r.Success? <==> RequireAuth(header, identity, db, dir).Success? && RequireAuth(header, identity, db, dir).value.kind == DemoUser
    ensures r.Success? ==> r.value == RequireAuth(header, identity, db, dir).value
    ensures r.Failure? && r.error.statusCode == 403 <==>
      RequireAuth(header, identity, db, dir).Success? && RequireAuth(header, identity, db, dir).value.kind != DemoUser
    ensures RequireAuth(header, identity, db, dir).Failure? ==> r == Failure(RequireAuth(header, identity, db, dir).error)
    ensures r.Failure? ==> r.error.code.None?
  {
    var user :- RequireAuth(header, identity, db, dir);
    if user.kind != DemoUser then Failure(DemoUserRequired) else Success(user)
  }

  /** `requireEndUser`: authentication, then 403 for any other kind. */
  function RequireEndUser(header: Option<string>, identity: string -> Verification, db: Backend, dir: Directory)
    : (r: Result<AuthenticatedUser, ApiError>)
    ensures r.Success? <==> RequireAuth(header, identity, db, dir).Success? && RequireAuth(header, identity, db, dir).value.kind == EndUser
    ensures r.Success? ==> r.value == RequireAuth(header, identity, db, dir).value
    ensures r.Failure? && r.error.statusCode == 403 <==>
      RequireAuth(header, identity, db, dir).Success? && RequireAuth(header, identity, db, dir).value.kind != EndUser
    ensures RequireAuth(header, identity, db, dir).Failure? ==> r == Failure(RequireAuth(header, identity, db, dir).error)
    ensures r.Failure? ==> r.error.code.None?
  {
    var user :- RequireAuth(header, identity, db, dir);
    if user.kind != EndUser then Failure(EndUserRequired) else Success(user)
  }

  /** `createErrorResponse`: the error envelope, stamped with the clock value `now`. */
  function CreateErrorResponse(e: ApiError, details: Option<map<string, string>>, now: string): Response
  {
    Response(e.statusCode, ErrorBody(e.message, e.code, details, now))
  }

  /** What a client reads back from an error envelope. */
  function ReadError(r: Response): Option<(ApiError, Option<map<string, string>>)>
  {
    if r.body.ErrorBody? then Some((ApiError(r.body.error, r.status, r.body.code), r.body.details)) else None
  }

  /** The envelope loses nothing: the client recovers the error's message,
      status and code, and the details, exactly. */
  lemma ErrorResponseRoundTrip(e: ApiError, details: Option<map<string, string>>, now: string)
    ensures ReadError(CreateErrorResponse(e, details, now)) == Some((e, details))
    ensures CreateErrorResponse(e, details, now).status == e.statusCode
  {
  }

  /** `createSuccessResponse`: the data as the body, with the given status
      (the source defaults it to 200); a data body never reads as an error. */
  function CreateSuccessResponse(body: Body, status: int): (r: Response)
    ensures r.status == status && r.body == body
    ensures !body.ErrorBody? ==> ReadError(r).None?
  {
    Response(status, body)
  }
}

=== FILE: catalog_schemas.dfy ===
/** The request schemas (src/lib/validation/catalog.schemas.ts) as partial
    functions from decoded input to a typed value or the full list of
    issues. Each object schema checks every field and reports all failing
    fields at once. Number coercion (`z.coerce.number`) happens before these
    functions (the query fields arrive as numbers), and the UUID test is the
    parameter `isUuid`. */
module CatalogSchemas {
  import opened Wrappers
  import opened Entities
  import Text

  const MaxNameLength := 255
  const MaxDescriptionLength := 1000
  const MaxLimit := 50
  const DefaultPage := 1
  const DefaultLimit := 50

  const NameRequired := "Name is required"
  const NameTooLong := "Name must be at most 255 characters"
  const DescriptionTooLong := "Description must be at most 1000 characters"
  const EmptyCatalogData := "Catalog data cannot be empty"
  const InvalidUuid := "Invalid UUID format"
  const InvalidDemoUserId := "Invalid demo user ID"
  const NotAnInteger := "Expected integer, received float"
  const NotANumber := "Expected number, received nan"
  const BelowOne := "Number must be greater than or equal to 1"
  const AboveMaxLimit := "Number must be less than or equal to 50"
  const SortOptions := "'created_at' | 'updated_at' | 'name'"
  const OrderOptions := "'asc' | 'desc'"

  /** The raw list query: the page and limit already coerced to numbers. */
  datatype QueryInput = QueryInput(
    page: Option<Num>,
    limit: Option<Num>,
    search: Option<Json>,
    sort: Option<Json>,
    order: Option<Json>)

  datatype CreateRequest = CreateRequest(name: string, description: Field<string>, data: map<string, Json>)

  datatype UpdateRequest = UpdateRequest(name: Option<string>, description: Field<string>, data: Option<map<string, Json>>)

  /** The field `key` of a decoded object, absent when missing. */
  function Lookup(fields: map<string, Json>, key: string): Option<Json>
  {
    if key in fields then Some(fields[key]) else None
  }

  /** The library's name for the type of a value. */
  function TypeName(v: Json): string
  {
    match v
    case JNull => "null"
    case JBool(_) => "boolean"
    case JNum(n) => if n.NaN? then "nan" else "number"
    case JStr(_) => "string"
    case JArr(_) => "array"
    case JObj(_) => "object"
  }

  /** The library's default type-mismatch message; a missing value reads "Required". */
  function InvalidType(expected: string, v: Option<Json>): string
  {
    if v.None? then "Required" else "Expected " + expected + ", received " + TypeName(v.value)
  }

  /** The issues of one field, each at path `[key]`. */
  function At<T>(key: string, r: Result<T, seq<string>>): (issues: seq<Issue>)
    ensures |issues| == if r.Failure? then |r.error| else 0
    ensures forall i :: 0 <= i < |issues| ==> issues[i].path == [key]
  {
    if r.Success? then [] else seq(|r.error|, i requires 0 <= i < |r.error| => Issue([key], r.error[i]))
  }

  /** The set of paths a list of issues mentions. */
  function Paths(issues: seq<Issue>): set<seq<string>>
  {
    set i | 0 <= i < |issues| :: issues[i].path
  }

  lemma PathsAppend(a: seq<Issue>, b: seq<Issue>)
    ensures Paths(a + b) == Paths(a) + Paths(b)
  {
    forall p | p in Paths(a) ensures p in Paths(a + b) {
      var i :| 0 <= i < |a| && a[i].path == p;
      assert (a + b)[i].path == p;
    }
    forall p | p in Paths(a + b) ensures p in Paths(a) + Paths(b) {
      var i :| 0 <= i < |a + b| && (a + b)[i].path == p;
      if i >= |a| {
        assert b[i - |a|].path == p;
      }
    }
    forall p | p in Paths(b) ensures p in Paths(a + b) {
      var i :| 0 <= i < |b| && b[i].path == p;
      assert (a + b)[i + |a|].path == p;
    }
  }

  lemma PathsAt<T>(key: string, r: Result<T, seq<string>>)
    requires r.Failure? ==> |r.error| > 0
    ensures Paths(At(key, r)) == if r.Failure? then {[key]} else {}
  {
    if r.Failure? {
      assert At(key, r)[0].path == [key];
    }
  }

  // ---------------------------------------------------------------------
  // Pagination and list query
  // ---------------------------------------------------------------------

  predicate IsIntegral(n: Num) {
    n.Finite? && n.r == n.r.Floor as real
  }

  /** A page or limit passes: absent, or an integer at least 1 (and at most
      `MaxLimit` when `bounded`). */
  predicate CountFits(v: Option<Num>, bounded: bool) {
    v.None? || (IsIntegral(v.value) && v.value.r >= 1.0 && (bounded ==> v.value.r <= MaxLimit as real))
  }

  /** `z.coerce.number().int().min(1)[.max(50)].default(d)`: an absent
      value takes the default; a present one must be an integer at least 1
      (and at most `MaxLimit` when `bounded`). Each failed check adds its own
      message. */
  function CheckCount(v: Option<Num>, default: int, bounded: bool): (r: Result<int, seq<string>>)
    requires 1 <= default <= MaxLimit
    ensures r.Success? <==> CountFits(v, bounded)
    ensures r.Success? ==> r.value == (if v.None? then default else v.value.r.Floor)
    ensures r.Failure? ==> |r.error| > 0
  {
    if v.None? then Success(default)
    else
      match v.value
      case NaN => Failure([NotANumber])
      case Infinite(positive) =>
        Failure([NotAnInteger] + (if positive then [] else [BelowOne]) + (if bounded && positive then [AboveMaxLimit] else []))
      case Finite(x) =>
        var issues :=
          (if x == x.Floor as real then [] else [NotAnInteger])
          + (if x >= 1.0 then [] else [BelowOne])
          + (if bounded && x > MaxLimit as real then [AboveMaxLimit] else []);
        if issues == [] then Success(x.Floor) else Failure(issues)
  }

  /** An optional string field passes: absent or a string. */
  predicate StringFits(v: Option<Json>) {
    v.None? || v.value.JStr?
  }

  /** An optional string field. */
  function CheckOptionalString(v: Option<Json>): (r: Result<Option<string>, seq<string>>)
    ensures r.Success? <==> StringFits(v)
    ensures r.Success? ==> r.value == if v.None? then None else Some(v.value.s)
    ensures r.Failure? ==> |r.error| > 0
  {
    if v.None? then Success(None)
    else if v.value.JStr? then Success(Some(v.value.s))
    else Failure([InvalidType("string", v)])
  }

  function SortName(f: SortField): string {
    match f
    case CreatedAt => "created_at"
    case UpdatedAt => "updated_at"
    case Name => "name"
  }

  function OrderName(o: SortOrder): string {
    match o
    case Asc => "asc"
    case Desc => "desc"
  }

  /** The sort field passes: absent or the name of a sort key. */
  predicate SortFits(v: Option<Json>) {
    v.None? || (v.value.JStr? && exists f :: SortName(f) == v.value.s)
  }

  /** The order passes: absent, `asc` or `desc`. */
  predicate OrderFits(v: Option<Json>) {
    v.None? || (v.value.JStr? && exists o :: OrderName(o) == v.value.s)
  }

  /** A string enum with a default: the library's messages name the options. */
  function EnumMismatch(options: string, v: Json): string
  {
    if v.JStr? then "Invalid enum value. Expected " + options + ", received '" + v.s + "'"
    else "Expected " + options + ", received " + TypeName(v)
  }

  /** `z.enum(['created_at', 'updated_at', 'name']).default('created_at')`. */
  function CheckSort(v: Option<Json>): (r: Result<SortField, seq<string>>)
    ensures r.Success? <==> SortFits(v)
    ensures r.Success? && v.Some? ==> SortName(r.value) == v.value.s
    ensures v.None? ==> r == Success(CreatedAt)
    ensures r.Failure? ==> |r.error| > 0
  {
    if v.None? then Success(CreatedAt)
    else if v.value == JStr("created_at") then assert SortName(CreatedAt) == v.value.s; Success(CreatedAt)
    else if v.value == JStr("updated_at") then assert SortName(UpdatedAt) == v.value.s; Success(UpdatedAt)
    else if v.value == JStr("name") then assert SortName(Name) == v.value.s; Success(Name)
    else Failure([EnumMismatch(SortOptions, v.value)])
  }

  /** `z.enum(['asc', 'desc']).default('desc')`. */
  function CheckOrder(v: Option<Json>): (r: Result<SortOrder, seq<string>>)
    ensures r.Success? <==> OrderFits(v)
    ensures r.Success? && v.Some? ==> OrderName(r.value) == v.value.s
    ensures v.None? ==> r == Success(Desc)
    ensures r.Failure? ==> |r.error| > 0
  {
    if v.None? then Success(Desc)
    else if v.value == JStr("asc") then assert OrderName(Asc) == v.value.s; Success(Asc)
    else if v.value == JStr("desc") then assert OrderName(Desc) == v.value.s; Success(Desc)
    else Failure([EnumMismatch(OrderOptions, v.value)])
  }

  /** The fields of a list query that fail their rule. */
  function FailingQueryFields(q: QueryInput): set<seq<string>>
  {
    (if CountFits(q.page, false) then {} else {["page"]})
    + (if CountFits(q.limit, true) then {} else {["limit"]})
    + (if StringFits(q.search) then {} else {["search"]})
    + (if SortFits(q.sort) then {} else {["sort"]})
    + (if OrderFits(q.order) then {} else {["order"]})
  }

  /** `catalogListQuerySchema`: pagination, optional search, sort and order.
      Present values are kept (a page or limit as the integer sent), absent
      ones take their defaults. */
  function ValidateListQuery(q: QueryInput): (r: Result<ListQuery, seq<Issue>>)
    ensures r.Success? <==> FailingQueryFields(q) == {}
    ensures r.Success? ==> r.value.page >= 1 && 1 <= r.value.limit <= MaxLimit
    ensures r.Success? && q.page.Some? ==> r.value.page == q.page.value.r.Floor
    ensures r.Success? && q.limit.Some? ==> r.value.limit == q.limit.value.r.Floor
    ensures r.Success? && q.sort.Some? ==> SortName(r.value.sort) == q.sort.value.s
    ensures r.Success? && q.order.Some? ==> OrderName(r.value.order) == q.order.value.s
    ensures r.Success? && q.page.None? ==> r.value.page == DefaultPage
    ensures r.Success? && q.limit.None? ==> r.value.limit == DefaultLimit
    ensures r.Success? && q.sort.None? ==> r.value.sort == CreatedAt
    ensures r.Success? && q.order.None? ==> r.value.order == Desc
    ensures r.Success? && q.search.None? ==> r.value.search.None?
    ensures r.Success? && q.search.Some? ==> q.search.value.JStr? && r.value.search == Some(q.search.value.s)
    ensures r.Failure? ==> |r.error| > 0
  {
    var page := CheckCount(q.page, DefaultPage, false);
    var limit := CheckCount(q.limit, DefaultLimit, true);
    var search := CheckOptionalString(q.search);
    var sort := CheckSort(q.sort);
    var order := CheckOrder(q.order);
    if page.Success? && limit.Success? && search.Success? && sort.Success? && order.Success? then
      Success(ListQuery(page.value, limit.value, search.value, sort.value, order.value))
    else
      Failure(At("page", page) + At("limit", limit) + At("search", search) + At("sort", sort) + At("order", order))
  }

  /** A list query is rejected with one issue path for each failing field,
      every failing field and no other. */
  lemma QueryReportsEveryField(q: QueryInput)
    ensures ValidateListQuery(q).Failure? ==> Paths(ValidateListQuery(q).error) == FailingQueryFields(q)
  {
    var page := CheckCount(q.page, DefaultPage, false);
    var limit := CheckCount(q.limit, DefaultLimit, true);
    var search := CheckOptionalString(q.search);
    var sort := CheckSort(q.sort);
    var order := CheckOrder(q.order);
    PathsAt("page", page);
    PathsAt("limit", limit);
    PathsAt("search", search);
    PathsAt("sort", sort);
    PathsAt("order", order);
    var a := At("page", page) + At("limit", limit);
    PathsAppend(At("page", page), At("limit", limit));
    PathsAppend(a, At("search", search));
    PathsAppend(a + At("search", search), At("sort", sort));
    PathsAppend(a + At("search", search) + At("sort", sort), At("order", order));
  }

  // ---------------------------------------------------------------------
  // Create and update bodies
  // ---------------------------------------------------------------------

  /** The name as sent is a string of 1 to 255 characters (before trimming). */
  predicate NameFits(v: Option<Json>) {
    v.Some? && v.value.JStr? && 1 <= |v.value.s| <= MaxNameLength
  }

  /** The description is absent, null, or a string of at most 1000 characters. */
  predicate DescriptionFits(v: Option<Json>) {
    v.None? || v.value.JNull? || (v.value.JStr? && |v.value.s| <= MaxDescriptionLength)
  }

  /** The catalog data is an object with at least one key. */
  predicate NonEmptyRecord(v: Option<Json>) {
    v.Some? && v.value.JObj? && |v.value.fields| > 0
  }

  /** `z.string().min(1).max(255).trim()`: the length checks see the string
      as sent; trimming applies to the accepted value only. */
  function CheckName(v: Option<Json>): (r: Result<string, seq<string>>)
    ensures r.Success? <==> NameFits(v)
    ensures r.Success? ==> r.value == Text.Trim(v.value.s)
    ensures r.Failure? ==> |r.error| > 0
  {
    if v.Some? && v.value.JStr? then
      var s := v.value.s;
      var issues := (if |s| >= 1 then [] else [NameRequired]) + (if |s| <= MaxNameLength then [] else [NameTooLong]);
      if issues == [] then Success(Text.Trim(s)) else Failure(issues)
    else Failure([InvalidType("string", v)])
  }

  /** `z.string().max(1000).optional().nullable()`. */
  function CheckDescription(v: Option<Json>): (r: Result<Field<string>, seq<string>>)
    ensures r.Success? <==> DescriptionFits(v)
    ensures r.Success? ==> r.value == (if v.None? then Absent else if v.value.JNull? then Null else Given(v.value.s))
    ensures r.Failure? ==> |r.error| > 0
  {
    if v.None? then Success(Absent)
    else if v.value.JNull? then Success(Null)
    else if v.value.JStr? then
      if |v.value.s| <= MaxDescriptionLength then Success(Given(v.value.s)) else Failure([DescriptionTooLong])
    else Failure([InvalidType("string", v)])
  }

  /** `z.record(z.any())` refined to have at least one key. */
  function CheckCatalogData(v: Option<Json>): (r: Result<map<string, Json>, seq<string>>)
    ensures r.Success? <==> NonEmptyRecord(v)
    ensures r.Success? ==> r.value == v.value.fields
    ensures r.Failure? ==> |r.error| > 0
  {
    if v.Some? && v.value.JObj? then
      if |v.value.fields| > 0 then Success(v.value.fields) else Failure([EmptyCatalogData])
    else Failure([InvalidType("object", v)])
  }

  /** `z.record(z.any()).optional()`: any object, including an empty one. */
  function CheckOptionalData(v: Option<Json>): (r: Result<Option<map<string, Json>>, seq<string>>)
    ensures r.Success? <==> v.None? || v.value.JObj?
    ensures r.Success? ==> r.value == if v.None? then None else Some(v.value.fields)
    ensures r.Failure? ==> |r.error| > 0
  {
    if v.None? then Success(None)
    else if v.value.JObj? then Success(Some(v.value.fields))
    else Failure([InvalidType("object", v)])
  }

  /** `.optional()` around the name check: absent stays absent. */
  function CheckOptionalName(v: Option<Json>): (r: Result<Option<string>, seq<string>>)
    ensures r.Success? <==> v.None? || NameFits(v)
    ensures r.Success? ==> r.value == if v.None? then None else Some(Text.Trim(v.value.s))
    ensures r.Failure? ==> |r.error| > 0
  {
    if v.None? then Success(None)
    else
      var n := CheckName(v);
      if n.Success? then Success(Some(n.value)) else Failure(n.error)
  }

  /** A body that is not an object fails as a whole, at the empty path. */
  function NotAnObject(body: Json): seq<Issue>
  {
    [Issue([], InvalidType("object", Some(body)))]
  }

  /** The fields of a create body that fail their rule. */
  function FailingCreateFields(fields: map<string, Json>): set<seq<string>>
  {
    (if NameFits(Lookup(fields, "name")) then {} else {["name"]})
    + (if DescriptionFits(Lookup(fields, "description")) then {} else {["description"]})
    + (if NonEmptyRecord(Lookup(fields, "catalog_data")) then {} else {["catalog_data"]})
  }

  /** `createCatalogRequestSchema`. */
  function ValidateCreateBody(body: Json): (r: Result<CreateRequest, seq<Issue>>)
    ensures r.Success? <==> body.JObj? && FailingCreateFields(body.fields) == {}
    ensures r.Success? ==>
      && r.value.name == Text.Trim(body.fields["name"].s)
      && r.value.data == body.fields["catalog_data"].fields
      && |r.value.data| > 0
    ensures r.Failure? ==> |r.error| > 0
  {
    if !body.JObj? then Failure(NotAnObject(body))
    else
      var f := body.fields;
      var name := CheckName(Lookup(f, "name"));
      var description := CheckDescription(Lookup(f, "description"));
      var data := CheckCatalogData(Lookup(f, "catalog_data"));
      if name.Success? && description.Success? && data.Success? then
        Success(CreateRequest(name.value, description.value, data.value))
      else
        Failure(At("name", name) + At("description", description) + At("catalog_data", data))
  }

  /** A create body that is an object is rejected with one issue path for
      each failing field, every failing field and no other: the check is not
      cut short at the first failure. */
  lemma CreateReportsEveryField(body: Json)
    requires body.JObj?
    ensures ValidateCreateBody(body).Failure? ==> Paths(ValidateCreateBody(body).error) == FailingCreateFields(body.fields)
  {
    var f := body.fields;
    var name := CheckName(Lookup(f, "name"));
    var description := CheckDescription(Lookup(f, "description"));
    var data := CheckCatalogData(Lookup(f, "catalog_data"));
    PathsAt("name", name);
    PathsAt("description", description);
    PathsAt("catalog_data", data);
    PathsAppend(At("name", name), At("description", description));
    PathsAppend(At("name", name) + At("description", description), At("catalog_data", data));
  }

  /** The description of an accepted create body is absent, null or the string sent. */
  lemma CreateDescriptionKept(body: Json)
    requires ValidateCreateBody(body).Success?
    ensures var d := ValidateCreateBody(body).value.description;
      && (d.Absent? <==> "description" !in body.fields)
      && (d.Null? <==> "description" in body.fields && body.fields["description"].JNull?)
      && (d.Given? ==> body.fields["description"] == JStr(d.value))
  {
  }

  /** The length checks run before trimming, so a name of 1 to 255 white
      space characters is accepted and becomes the empty name. */
  lemma WhitespaceNameAccepted(body: Json, s: string)
    requires body.JObj? && Lookup(body.fields, "name") == Some(JStr(s))
    requires 1 <= |s| <= MaxNameLength && forall k :: 0 <= k < |s| ==> Text.IsWhitespace(s[k])
    requires DescriptionFits(Lookup(body.fields, "description"))
    requires NonEmptyRecord(Lookup(body.fields, "catalog_data"))
    ensures ValidateCreateBody(body).Success? && ValidateCreateBody(body).value.name == ""
  {
    Text.TrimAllWhitespace(s);
  }

  /** The fields of an update body that fail their rule. */
  function FailingUpdateFields(fields: map<string, Json>): set<seq<string>>
  {
    var name := Lookup(fields, "name");
    var data := Lookup(fields, "catalog_data");
    (if name.None? || NameFits(name) then {} else {["name"]})
    + (if DescriptionFits(Lookup(fields, "description")) then {} else {["description"]})
    + (if data.None? || data.value.JObj? then {} else {["catalog_data"]})
  }

  /** `updateCatalogRequestSchema`: every field optional, with the create
      bounds when present; an empty data object is allowed. */
  function ValidateUpdateBody(body: Json): (r: Result<UpdateRequest, seq<Issue>>)
    ensures r.Success? <==> body.JObj? && FailingUpdateFields(body.fields) == {}
    ensures r.Success? ==> (r.value.name.None? <==> "name" !in body.fields)
    ensures r.Success? ==> (r.value.description.Absent? <==> "description" !in body.fields)
    ensures r.Success? ==> (r.value.description.Null? <==> "description" in body.fields && body.fields["description"].JNull?)
    ensures r.Success? && r.value.description.Given? ==> body.fields["description"] == JStr(r.value.description.value)
    ensures r.Success? ==> (r.value.data.None? <==> "catalog_data" !in body.fields)
    ensures r.Success? && r.value.name.Some? ==> r.value.name.value == Text.Trim(body.fields["name"].s)
    ensures r.Success? && r.value.data.Some? ==> r.value.data.value == body.fields["catalog_data"].fields
    ensures r.Failure? ==> |r.error| > 0
  {
    if !body.JObj? then Failure(NotAnObject(body))
    else
      var f := body.fields;
      var name := CheckOptionalName(Lookup(f, "name"));
      var description := CheckDescription(Lookup(f, "description"));
      var data := CheckOptionalData(Lookup(f, "catalog_data"));
      if name.Success? && description.Success? && data.Success? then
        Success(UpdateRequest(name.value, description.value, data.value))
      else
        Failure(At("name", name) + At("description", description) + At("catalog_data", data))
  }

  /** An update body that is an object is rejected with exactly its failing fields. */
  lemma UpdateReportsEveryField(body: Json)
    requires body.JObj?
    ensures ValidateUpdateBody(body).Failure? ==> Paths(ValidateUpdateBody(body).error) == FailingUpdateFields(body.fields)
  {
    var f := body.fields;
    var name := CheckOptionalName(Lookup(f, "name"));
    var description := CheckDescription(Lookup(f, "description"));
    var data := CheckOptionalData(Lookup(f, "catalog_data"));
    PathsAt("name", name);
    PathsAt("description", description);
    PathsAt("catalog_data", data);
    PathsAppend(At("name", name), At("description", description));
    PathsAppend(At("name", name) + At("description", description), At("catalog_data", data));
  }

  // ---------------------------------------------------------------------
  // Identifiers
  // ---------------------------------------------------------------------

  /** `catalogIdParamSchema`: the `catalog_id` route parameter must be a UUID. */
  function ValidateCatalogIdParam(v: Option<Json>, isUuid: string -> bool): (r: Result<string, seq<Issue>>)
    ensures r.Success? <==> v.Some? && v.value.JStr? && isUuid(v.value.s)
    ensures r.Success? ==> r.value == v.value.s
    ensures r.Failure? ==> Paths(r.error) == {["catalog_id"]}
  {
    var c: Result<string, seq<string>> :=
      if v.Some? && v.value.JStr? then
        if isUuid(v.value.s) then Success(v.value.s) else Failure([InvalidUuid])
      else Failure([InvalidType("string", v)]);
    PathsAt("catalog_id", c);
    if c.Success? then Success(c.value) else Failure(At("catalog_id", c))
  }

  /** `demoUserIdSchema`: a bare string that must be a UUID. */
  function ValidateDemoUserId(v: Json, isUuid: string -> bool): (r: Result<string, seq<Issue>>)
    ensures r.Success? <==> v.JStr? && isUuid(v.s)
    ensures r.Success? ==> r.value == v.s
    ensures r.Failure? ==> |r.error| == 1 && r.error[0].path == []
  {
    if v.JStr? && isUuid(v.s) then Success(v.s)
    else if v.JStr? then Failure([Issue([], InvalidDemoUserId)])
    else Failure([Issue([], InvalidType("string", Some(v)))])
  }
}

=== FILE: catalog_service.dfy ===
/** The catalog service (src/lib/services/catalog.service.ts) over an
    abstract `product_catalogs` table. Each operation reads the table and
    returns the table after it, or the message of the `Error` it throws.
    The store's collation (its `ilike` case folding and the ORDER BY key
    order) is the parameter `Collation`; the clock value `now` stands for
    `new Date().toISOString()`. */
module CatalogService {
  import opened Wrappers
  import opened Entities
  import Text
  import Seqs

  const CatalogNotFound := "Catalog not found"
  const NameTaken := "Catalog with this name already exists"
  /** What the store reports when an insert reuses a primary key. */
  const DuplicateKey := "duplicate key value violates unique constraint"

  /** The store's case folding for `ilike` and its order on each sort key. */
  datatype Collation = Collation(fold: char -> char, keyLe: (SortField, Catalog, Catalog) -> bool)

  /** Each sort key orders every pair of rows, transitively. */
  ghost predicate Coherent(c: Collation) {
    && (forall f, a, b :: c.keyLe(f, a, b) || c.keyLe(f, b, a))
    && (forall f, a, b, d :: c.keyLe(f, a, b) && c.keyLe(f, b, d) ==> c.keyLe(f, a, d))
  }

  /** ORDER BY `f` ascending, or descending (the key order reversed). */
  function Precedes(c: Collation, f: SortField, o: SortOrder): (Catalog, Catalog) -> bool
  {
    (a, b) => if o == Asc then c.keyLe(f, a, b) else c.keyLe(f, b, a)
  }

  lemma PrecedesTotal(c: Collation, f: SortField, o: SortOrder)
    requires Coherent(c)
    ensures Seqs.TotalPreorder(Precedes(c, f, o))
  {
  }

  function Fold(c: Collation, s: string): string
  {
    seq(|s|, i requires 0 <= i < |s| => c.fold(s[i]))
  }

  /** `name ilike '%search%'`: a substring test after case folding. */
  predicate ILike(c: Collation, name: string, search: string) {
    Text.Includes(Fold(c, name), Fold(c, search))
  }

  // ---------------------------------------------------------------------
  // getCatalogs
  // ---------------------------------------------------------------------

  /** A row the list query selects: the owner's, active, and matching the
      search when one is given (`if (search)`: an empty search does not filter). */
  predicate Selected(c: Collation, owner: string, search: Option<string>, r: Catalog) {
    r.demoUserId == owner && r.isActive && (search.Some? && search.value != "" ==> ILike(c, r.name, search.value))
  }

  /** The rows the WHERE clause keeps, in table order; page and limit play no part. */
  function Matching(t: Table, c: Collation, owner: string, search: Option<string>): seq<Catalog>
  {
    Seqs.Filter(t, r => Selected(c, owner, search, r))
  }

  /** All selected rows, in ORDER BY order. */
  function Arranged(t: Table, c: Collation, owner: string, q: ListQuery): seq<Catalog>
  {
    Seqs.SortBy(Matching(t, c, owner, q.search), Precedes(c, q.sort, q.order))
  }

  lemma ArrangedSelected(t: Table, c: Collation, owner: string, q: ListQuery)
    ensures forall k :: 0 <= k < |Arranged(t, c, owner, q)| ==> Selected(c, owner, q.search, Arranged(t, c, owner, q)[k])
    ensures multiset(Arranged(t, c, owner, q)) == multiset(Matching(t, c, owner, q.search))
  {
    var all := Arranged(t, c, owner, q);
    var hits := Matching(t, c, owner, q.search);
    forall k | 0 <= k < |all| ensures Selected(c, owner, q.search, all[k]) {
      assert all[k] in multiset(all);
      assert all[k] in multiset(hits);
      var j :| 0 <= j < |hits| && hits[j] == all[k];
    }
  }

  /** Every selected row of the table is among the arranged rows, and only those. */
  lemma ArrangedExact(t: Table, c: Collation, owner: string, q: ListQuery, x: Catalog)
    ensures x in Arranged(t, c, owner, q) <==> x in t && Selected(c, owner, q.search, x)
  {
    var hits := Matching(t, c, owner, q.search);
    ArrangedSelected(t, c, owner, q);
    assert x in Arranged(t, c, owner, q) <==> x in multiset(hits);
    if x in t && Selected(c, owner, q.search, x) {
      var i :| 0 <= i < |t| && t[i] == x;
      assert x in hits;
    }
  }

  /** Under a coherent collation the arranged rows are in ORDER BY order. */
  lemma ArrangedSorted(t: Table, c: Collation, owner: string, q: ListQuery)
    requires Coherent(c)
    ensures Seqs.Sorted(Arranged(t, c, owner, q), Precedes(c, q.sort, q.order))
  {
    PrecedesTotal(c, q.sort, q.order);
    Seqs.SortBySorted(Matching(t, c, owner, q.search), Precedes(c, q.sort, q.order));
  }

  lemma WindowSelected(t: Table, c: Collation, owner: string, q: ListQuery, items: seq<Catalog>)
    requires q.page >= 1 && q.limit >= 1
    requires items == Seqs.Window(Arranged(t, c, owner, q), Offset(q), q.limit)
    ensures forall k :: 0 <= k < |items| ==> Selected(c, owner, q.search, items[k])
  {
    ArrangedSelected(t, c, owner, q);
  }

  /** `k` pages of `d` rows are the fewest that hold `n` rows. */
  predicate IsCeiling(k: int, n: int, d: int) {
    k * d >= n && (k == 0 || (k - 1) * d < n)
  }

  /** `Math.ceil(n / d)` for a whole `n` and a positive `d`. */
  function CeilDiv(n: nat, d: int): (k: nat)
    requires d > 0
    ensures IsCeiling(k, n, d)
  {
    var k := (n + d - 1) / d;
    assert n + d - 1 == k * d + (n + d - 1) % d;
    k
  }

  /** `(page - 1) * limit`. */
  function Offset(q: ListQuery): nat
    requires q.page >= 1 && q.limit >= 1
  {
    (q.page - 1) * q.limit
  }

  /** `getCatalogs`: the owner's active rows matching the search, ordered,
      then the `limit` rows from `(page - 1) * limit`; the total counts all
      matching rows. */
  function GetCatalogs(db: Backend, t: Table, c: Collation, owner: string, q: ListQuery): (r: Result<CatalogList, string>)
    requires q.page >= 1 && q.limit >= 1
    ensures r.Success? <==> db.Up?
    ensures r.Failure? ==> r.error == "Failed to fetch catalogs: " + db.reason
    ensures r.Success? ==>
      var items := r.value.catalogs;
      var p := r.value.pagination;
      var all := Arranged(t, c, owner, q);
      && p.page == q.page && p.limit == q.limit && p.total == |all|
      && IsCeiling(p.totalPages, p.total, q.limit)
      && |items| == (if Offset(q) >= |all| then 0 else if q.limit < |all| - Offset(q) then q.limit else |all| - Offset(q))
      && (forall k :: 0 <= k < |items| ==> items[k] == all[Offset(q) + k])
      && (forall k :: 0 <= k < |items| ==> Selected(c, owner, q.search, items[k]))
  {
    if db.Down? then Failure("Failed to fetch catalogs: " + db.reason)
    else
      var all := Arranged(t, c, owner, q);
      var items := Seqs.Window(all, Offset(q), q.limit);
      WindowSelected(t, c, owner, q, items);
      Success(CatalogList(items, Pagination(q.page, q.limit, |all|, CeilDiv(|all|, q.limit))))
  }

  /** Under a coherent collation every page is in ORDER BY order. */
  lemma PageSorted(db: Backend, t: Table, c: Collation, owner: string, q: ListQuery)
    requires q.page >= 1 && q.limit >= 1
    requires Coherent(c) && db.Up?
    ensures Seqs.Sorted(GetCatalogs(db, t, c, owner, q).value.catalogs, Precedes(c, q.sort, q.order))
  {
    var all := Arranged(t, c, owner, q);
    var items := GetCatalogs(db, t, c, owner, q).value.catalogs;
    ArrangedSorted(t, c, owner, q);
    forall i, j | 0 <= i < j < |items| ensures Precedes(c, q.sort, q.order)(items[i], items[j]) {
      assert items[i] == all[Offset(q) + i] && items[j] == all[Offset(q) + j];
    }
  }

  /** A page past the last one is empty, with the same total as any other page. */
  lemma PagePastEnd(t: Table, c: Collation, owner: string, q: ListQuery, other: int)
    requires q.limit >= 1 && other >= 1
    requires q.page > CeilDiv(|Matching(t, c, owner, q.search)|, q.limit)
    ensures GetCatalogs(Up, t, c, owner, q).value.catalogs == []
    ensures GetCatalogs(Up, t, c, owner, q).value.pagination.total
         == GetCatalogs(Up, t, c, owner, q.(page := other)).value.pagination.total
         == |Matching(t, c, owner, q.search)|
  {
    var n := |Matching(t, c, owner, q.search)|;
    ArrangedSelected(t, c, owner, q);
    assert |Arranged(t, c, owner, q)| == |multiset(Arranged(t, c, owner, q))| == n;
    var pages := CeilDiv(n, q.limit);
    assert IsCeiling(pages, n, q.limit);
    MulMonotone(pages, q.page - 1, q.limit);
    assert Offset(q) >= |Arranged(t, c, owner, q)|;
  }

  lemma MulMonotone(a: int, b: int, d: int)
    requires 0 <= a <= b && d >= 0
    ensures a * d <= b * d
  {
  }

  // ---------------------------------------------------------------------
  // getCatalogById
  // ---------------------------------------------------------------------

  /** A row the caller may see: this id, this owner, active. */
  predicate Visible(r: Catalog, id: string, owner: string) {
    r.id == id && r.demoUserId == owner && r.isActive
  }

  /** `getCatalogById`: exactly one visible row, or "Catalog not found". */
  function GetCatalogById(db: Backend, t: Table, id: string, owner: string): (r: Result<Catalog, string>)
    ensures r.Success? ==> db.Up? && Visible(r.value, id, owner) && r.value in t
    ensures r.Failure? ==> r.error == if db.Up? then CatalogNotFound else "Failed to fetch catalog: " + db.reason
  {
    if db.Down? then Failure("Failed to fetch catalog: " + db.reason)
    else
      var hits := Seqs.Filter(t, r => Visible(r, id, owner));
      if |hits| == 1 then Success(hits[0]) else Failure(CatalogNotFound)
  }

  /** With unique ids, get-by-id succeeds exactly when a visible row exists,
      and returns that row; foreign and inactive rows look missing. */
  lemma GetCatalogByIdExact(t: Table, id: string, owner: string)
    requires UniqueIds(t)
    ensures GetCatalogById(Up, t, id, owner).Success? <==> exists i :: 0 <= i < |t| && Visible(t[i], id, owner)
    ensures forall i :: 0 <= i < |t| && Visible(t[i], id, owner) ==> GetCatalogById(Up, t, id, owner) == Success(t[i])
  {
    var p := (r: Catalog) => Visible(r, id, owner);
    var hits := Seqs.Filter(t, p);
    Seqs.FilterAtMostOne(t, p);
    if exists i :: 0 <= i < |t| && Visible(t[i], id, owner) {
      var i :| 0 <= i < |t| && Visible(t[i], id, owner);
      assert t[i] in hits;
      forall j | 0 <= j < |t| && Visible(t[j], id, owner) ensures GetCatalogById(Up, t, id, owner) == Success(t[j]) {
        assert t[j] in hits;
      }
    } else {
      Seqs.FilterNone(t, p);
    }
  }

  // ---------------------------------------------------------------------
  // createCatalog
  // ---------------------------------------------------------------------

  /** `description || null`: an absent, null or empty description is stored as null. */
  function StoredDescription(d: Field<string>): (s: Option<string>)
    ensures s.None? <==> d.Absent? || d.Null? || d == Given("")
    ensures s.Some? ==> d == Given(s.value)
  {
    if d.Given? && d.value != "" then Some(d.value) else None
  }

  /** An active row of `owner` named `name`. */
  predicate ActiveNamed(r: Catalog, owner: string, name: string) {
    r.demoUserId == owner && r.name == name && r.isActive
  }

  /** Active rows of one owner have distinct names. */
  predicate NamesUnique(t: Table) {
    forall i, j :: 0 <= i < j < |t| && t[i].isActive && t[j].isActive && t[i].demoUserId == t[j].demoUserId
      ==> t[i].name != t[j].name
  }

  /** `createCatalog`: the duplicate-name lookup (whose failure reads as "no
      row") and then an insert of an active row at version 1. */
  function CreateCatalog(db: Backend, t: Table, cmd: CreateCommand, newId: string, now: string)
    : (r: Result<(Table, Catalog), string>)
    ensures r.Success? ==>
      var (t', row) := r.value;
      && db.Up? && t' == t + [row]
      && (forall i :: 0 <= i < |t| ==> t[i].id != newId)
      && row.id == newId && row.demoUserId == cmd.demoUserId && row.name == cmd.name && row.data == cmd.data
      && row.isActive && row.version == 1 && row.updatedAt == now
      && row.description == StoredDescription(cmd.description)
    ensures r.Failure? ==>
      || r.error == NameTaken
      || (db.Down? && r.error == "Failed to create catalog: " + db.reason)
      || (db.Up? && r.error == "Failed to create catalog: " + DuplicateKey && exists i :: 0 <= i < |t| && t[i].id == newId)
    ensures r == Failure(NameTaken) ==> db.Up? && exists i :: 0 <= i < |t| && ActiveNamed(t[i], cmd.demoUserId, cmd.name)
  {
    var hits := Seqs.Filter(t, r => ActiveNamed(r, cmd.demoUserId, cmd.name));
    var taken := db.Up? && |hits| == 1;
    if taken then
      assert ActiveNamed(hits[0], cmd.demoUserId, cmd.name) && hits[0] in t;
      Failure(NameTaken)
    else if db.Down? then NotNameTaken(db.reason); Failure("Failed to create catalog: " + db.reason)
    else if exists i :: 0 <= i < |t| && t[i].id == newId then
      NotNameTaken(DuplicateKey); Failure("Failed to create catalog: " + DuplicateKey)
    else
      var row := Catalog(newId, cmd.demoUserId, cmd.name, StoredDescription(cmd.description), cmd.data, true, 1, now, now);
      Success((t + [row], row))
  }

  /** No store failure reads as the name conflict. */
  lemma NotNameTaken(reason: string)
    ensures "Failed to create catalog: " + reason != NameTaken
  {
    assert ("Failed to create catalog: " + reason)[0] != NameTaken[0];
  }

  /** With active names unique, create fails with the conflict message
      exactly when an active row of the same owner has exactly that name. */
  lemma CreateConflictExact(t: Table, cmd: CreateCommand, newId: string, now: string)
    requires NamesUnique(t)
    ensures CreateCatalog(Up, t, cmd, newId, now) == Failure(NameTaken)
        <==> exists i :: 0 <= i < |t| && ActiveNamed(t[i], cmd.demoUserId, cmd.name)
  {
    var p := (r: Catalog) => ActiveNamed(r, cmd.demoUserId, cmd.name);
    var hits := Seqs.Filter(t, p);
    Seqs.FilterAtMostOne(t, p);
    if exists i :: 0 <= i < |t| && ActiveNamed(t[i], cmd.demoUserId, cmd.name) {
      var i :| 0 <= i < |t| && ActiveNamed(t[i], cmd.demoUserId, cmd.name);
      assert t[i] in hits;
    } else {
      Seqs.FilterNone(t, p);
    }
  }

  // ---------------------------------------------------------------------
  // updateCatalog and deleteCatalog
  // ---------------------------------------------------------------------

  /** A row an update or delete statement touches: this id and owner, active or not. */
  predicate Targets(r: Catalog, id: string, owner: string) {
    r.id == id && r.demoUserId == owner
  }

  /** Applies `f` to every targeted row and leaves the others alone. */
  function Rewrite(t: Table, id: string, owner: string, f: Catalog -> Catalog): (t': Table)
    ensures |t'| == |t|
    ensures forall i :: 0 <= i < |t| ==> t'[i] == if Targets(t[i], id, owner) then f(t[i]) else t[i]
  {
    seq(|t|, i requires 0 <= i < |t| => if Targets(t[i], id, owner) then f(t[i]) else t[i])
  }

  /** The fields an update writes: each supplied field, a version one past
      `base` when the data is replaced, and the refreshed `updated_at`. */
  function Revise(r: Catalog, cmd: UpdateCommand, base: int, now: string): Catalog
  {
    r.(name := if cmd.name.Some? then cmd.name.value else r.name,
       description := match cmd.description
                      case Absent => r.description
                      case Null => None
                      case Given(s) => Some(s),
       data := if cmd.data.Some? then cmd.data.value else r.data,
       version := if cmd.data.Some? then base + 1 else r.version,
       updatedAt := now)
  }

  /** `command.name && command.name !== existing.name`. */
  predicate RenameChecked(cmd: UpdateCommand, existing: Catalog) {
    cmd.name.Some? && cmd.name.value != "" && cmd.name.value != existing.name
  }

  /** Another active row of the owner already carrying the new name. */
  predicate Rival(r: Catalog, cmd: UpdateCommand) {
    cmd.name.Some? && ActiveNamed(r, cmd.demoUserId, cmd.name.value) && r.id != cmd.catalogId
  }

  /** `updateCatalog`: get-by-id, the duplicate-name check when renaming,
      then a write of the supplied fields to the targeted rows. */
  function UpdateCatalog(db: Backend, t: Table, cmd: UpdateCommand, now: string): (r: Result<(Table, Catalog), string>)
    ensures GetCatalogById(db, t, cmd.catalogId, cmd.demoUserId).Failure? ==>
      r == Failure(GetCatalogById(db, t, cmd.catalogId, cmd.demoUserId).error)
    ensures r.Success? ==>
      var existing := GetCatalogById(db, t, cmd.catalogId, cmd.demoUserId).value;
      var row := r.value.1;
      && GetCatalogById(db, t, cmd.catalogId, cmd.demoUserId).Success?
      && row.id == existing.id && row.demoUserId == existing.demoUserId && row.isActive
      && row.createdAt == existing.createdAt && row.updatedAt == now
      && row.name == (if cmd.name.Some? then cmd.name.value else existing.name)
      && row.data == (if cmd.data.Some? then cmd.data.value else existing.data)
      && row.version == (if cmd.data.Some? then existing.version + 1 else existing.version)
      && (cmd.description.Absent? ==> row.description == existing.description)
      && (cmd.description.Null? ==> row.description.None?)
      && (cmd.description.Given? ==> row.description == Some(cmd.description.value))
    ensures r.Failure? && GetCatalogById(db, t, cmd.catalogId, cmd.demoUserId).Success? ==>
      r.error == NameTaken && RenameChecked(cmd, GetCatalogById(db, t, cmd.catalogId, cmd.demoUserId).value)
  {
    var existing :- GetCatalogById(db, t, cmd.catalogId, cmd.demoUserId);
    if RenameChecked(cmd, existing) && |Seqs.Filter(t, r => Rival(r, cmd))| == 1 then Failure(NameTaken)
    else
      var t' := Rewrite(t, cmd.catalogId, cmd.demoUserId, r => Revise(r, cmd, existing.version, now));
      Success((t', Revise(existing, cmd, existing.version, now)))
  }

  /** With active names unique, an update of a visible row fails exactly
      when it renames to a non-empty new name another active row of the
      owner already has. */
  lemma UpdateConflictExact(t: Table, cmd: UpdateCommand, now: string)
    requires NamesUnique(t)
    requires GetCatalogById(Up, t, cmd.catalogId, cmd.demoUserId).Success?
    ensures UpdateCatalog(Up, t, cmd, now).Failure? <==>
      RenameChecked(cmd, GetCatalogById(Up, t, cmd.catalogId, cmd.demoUserId).value)
      && exists i :: 0 <= i < |t| && Rival(t[i], cmd)
  {
    var p := (r: Catalog) => Rival(r, cmd);
    var hits := Seqs.Filter(t, p);
    if cmd.name.Some? {
      Seqs.FilterAtMostOne(t, p);
    }
    if exists i :: 0 <= i < |t| && Rival(t[i], cmd) {
      var i :| 0 <= i < |t| && Rival(t[i], cmd);
      assert t[i] in hits;
    } else {
      Seqs.FilterNone(t, p);
    }
  }

  /** With unique ids a successful update rewrites only the row it read:
      that row becomes the returned row and every other row is unchanged. */
  lemma UpdateTouchesOneRow(t: Table, cmd: UpdateCommand, now: string, i: int)
    requires UniqueIds(t)
    requires 0 <= i < |t| && Visible(t[i], cmd.catalogId, cmd.demoUserId)
    requires UpdateCatalog(Up, t, cmd, now).Success?
    ensures var (t', row) := UpdateCatalog(Up, t, cmd, now).value;
      |t'| == |t| && t'[i] == row && forall j :: 0 <= j < |t| && j != i ==> t'[j] == t[j]
  {
    GetCatalogByIdExact(t, cmd.catalogId, cmd.demoUserId);
  }

  function Deactivate(r: Catalog, now: string): Catalog
  {
    r.(isActive := false, updatedAt := now)
  }

  /** `deleteCatalog`: get-by-id, then a soft delete of the targeted rows. */
  function DeleteCatalog(db: Backend, t: Table, cmd: DeleteCommand, now: string): (r: Result<Table, string>)
    ensures GetCatalogById(db, t, cmd.catalogId, cmd.demoUserId).Failure? ==>
      r == Failure(GetCatalogById(db, t, cmd.catalogId, cmd.demoUserId).error)
    ensures r.Success? <==> GetCatalogById(db, t, cmd.catalogId, cmd.demoUserId).Success?
    ensures r.Success? ==> |r.value| == |t| && forall i :: 0 <= i < |t| ==>
      r.value[i].id == t[i].id && r.value[i].name == t[i].name && r.value[i].version == t[i].version
      && (Targets(t[i], cmd.catalogId, cmd.demoUserId) ==> r.value[i] == t[i].(isActive := false, updatedAt := now))
      && (!Targets(t[i], cmd.catalogId, cmd.demoUserId) ==> r.value[i] == t[i])
  {
    var existing :- GetCatalogById(db, t, cmd.catalogId, cmd.demoUserId);
    Success(Rewrite(t, cmd.catalogId, cmd.demoUserId, r => Deactivate(r, now)))
  }

  /** Deleting twice: the second delete does not find the row. */
  lemma DeleteTwiceNotFound(t: Table, cmd: DeleteCommand, now: string, later: string)
    requires DeleteCatalog(Up, t, cmd, now).Success?
    ensures DeleteCatalog(Up, DeleteCatalog(Up, t, cmd, now).value, cmd, later) == Failure(CatalogNotFound)
    ensures GetCatalogById(Up, DeleteCatalog(Up, t, cmd, now).value, cmd.catalogId, cmd.demoUserId) == Failure(CatalogNotFound)
  {
    var t' := DeleteCatalog(Up, t, cmd, now).value;
    var p := (r: Catalog) => Visible(r, cmd.catalogId, cmd.demoUserId);
    forall i | 0 <= i < |t'| ensures !p(t'[i]) {
    }
    Seqs.FilterNone(t', p);
  }

  /** After a delete, the deleted row's name no longer blocks a create by its owner. */
  lemma DeleteFreesName(t: Table, cmd: DeleteCommand, now: string, create: CreateCommand, newId: string, later: string)
    requires NamesUnique(t)
    requires DeleteCatalog(Up, t, cmd, now).Success?
    requires create.demoUserId == cmd.demoUserId
    requires create.name == GetCatalogById(Up, t, cmd.catalogId, cmd.demoUserId).value.name
    ensures CreateCatalog(Up, DeleteCatalog(Up, t, cmd, now).value, create, newId, later) != Failure(NameTaken)
  {
    var t' := DeleteCatalog(Up, t, cmd, now).value;
    var gone := GetCatalogById(Up, t, cmd.catalogId, cmd.demoUserId).value;
    var k :| 0 <= k < |t| && t[k] == gone;
    forall i | 0 <= i < |t'| ensures !ActiveNamed(t'[i], create.demoUserId, create.name) {
      if t'[i].isActive && t'[i].demoUserId == create.demoUserId {
        assert !Targets(t[i], cmd.catalogId, cmd.demoUserId) && t'[i] == t[i];
        assert i != k;
        NamesDiffer(t, i, k);
      }
    }
  }

  lemma NamesDiffer(t: Table, i: int, k: int)
    requires NamesUnique(t)
    requires 0 <= i < |t| && 0 <= k < |t| && i != k
    requires t[i].isActive && t[k].isActive && t[i].demoUserId == t[k].demoUserId
    ensures t[i].name != t[k].name
  {
    if i > k {
      assert t[k].name != t[i].name;
    }
  }

  /** `validateDemoUser`: the id is an active demo user and the store answered. */
  function ValidateDemoUser(db: Backend, dir: Directory, id: string): (ok: bool)
    ensures ok <==> db.Up? && ActiveDemoUser(dir, id)
  {
    db.Up? && id in dir.demoUsers && dir.demoUsers[id].isActive
  }

  // ---------------------------------------------------------------------
  // Table invariants
  // ---------------------------------------------------------------------

  /** How a table may evolve: rows are never removed or re-keyed, a row's
      owner and creation time never change, versions never decrease, and
      an inactive row never becomes active again. */
  predicate Evolves(t: Table, t': Table) {
    |t| <= |t'| && forall i :: 0 <= i < |t| ==>
      && t'[i].id == t[i].id && t'[i].demoUserId == t[i].demoUserId && t'[i].createdAt == t[i].createdAt
      && t'[i].version >= t[i].version
      && (!t[i].isActive ==> !t'[i].isActive)
  }

  lemma CreateEvolves(db: Backend, t: Table, cmd: CreateCommand, newId: string, now: string)
    requires CreateCatalog(db, t, cmd, newId, now).Success?
    ensures Evolves(t, CreateCatalog(db, t, cmd, newId, now).value.0)
    ensures UniqueIds(t) ==> UniqueIds(CreateCatalog(db, t, cmd, newId, now).value.0)
    ensures NamesUnique(t) ==> NamesUnique(CreateCatalog(db, t, cmd, newId, now).value.0)
  {
    var t' := CreateCatalog(db, t, cmd, newId, now).value.0;
    if NamesUnique(t) {
      CreateConflictExact(t, cmd, newId, now);
      forall i | 0 <= i < |t| ensures !ActiveNamed(t[i], cmd.demoUserId, cmd.name) {
      }
      forall i, j | 0 <= i < j < |t'| && t'[i].isActive && t'[j].isActive && t'[i].demoUserId == t'[j].demoUserId
        ensures t'[i].name != t'[j].name
      {
        if j == |t| {
          assert !ActiveNamed(t[i], cmd.demoUserId, cmd.name);
        }
      }
    }
  }

  lemma UpdateEvolves(db: Backend, t: Table, cmd: UpdateCommand, now: string)
    requires UniqueIds(t)
    requires UpdateCatalog(db, t, cmd, now).Success?
    ensures Evolves(t, UpdateCatalog(db, t, cmd, now).value.0)
    ensures UniqueIds(UpdateCatalog(db, t, cmd, now).value.0)
  {
    assert db == Up;
    var existing := GetCatalogById(db, t, cmd.catalogId, cmd.demoUserId).value;
    var i :| 0 <= i < |t| && t[i] == existing;
    UpdateTouchesOneRow(t, cmd, now, i);
  }

  /** An update that does not rename to the empty string keeps active
      names unique per owner. */
  lemma UpdateKeepsNamesUnique(t: Table, cmd: UpdateCommand, now: string)
    requires UniqueIds(t) && NamesUnique(t)
    requires cmd.name != Some("")
    requires UpdateCatalog(Up, t, cmd, now).Success?
    ensures NamesUnique(UpdateCatalog(Up, t, cmd, now).value.0)
  {
    var (t', row) := UpdateCatalog(Up, t, cmd, now).value;
    var existing := GetCatalogById(Up, t, cmd.catalogId, cmd.demoUserId).value;
    var k :| 0 <= k < |t| && t[k] == existing;
    UpdateTouchesOneRow(t, cmd, now, k);
    UpdateConflictExact(t, cmd, now);
    forall i, j | 0 <= i < j < |t'| && t'[i].isActive && t'[j].isActive && t'[i].demoUserId == t'[j].demoUserId
      ensures t'[i].name != t'[j].name
    {
      if i == k || j == k {
        var other := if i == k then j else i;
        assert t'[other] == t[other];
        if row.name == existing.name {
          NamesDiffer(t, other, k);
        } else {
          assert t[other].id != cmd.catalogId;
          assert !Rival(t[other], cmd);
        }
      } else {
        assert t'[i] == t[i] && t'[j] == t[j];
      }
    }
  }

  /** Renaming to the empty string skips the duplicate check (the source
      tests `command.name` for truthiness), so two active catalogs of one
      owner can end up both named `""`. */
  lemma EmptyRenameSkipsCheck()
    ensures var a := Catalog("a", "u", "", None, map[], true, 1, "t0", "t0");
      var b := Catalog("b", "u", "x", None, map[], true, 1, "t0", "t0");
      var cmd := UpdateCommand("b", "u", Some(""), Absent, None);
      && UniqueIds([a, b]) && NamesUnique([a, b])
      && UpdateCatalog(Up, [a, b], cmd, "t1").Success?
      && !NamesUnique(UpdateCatalog(Up, [a, b], cmd, "t1").value.0)
  {
    var a := Catalog("a", "u", "", None, map[], true, 1, "t0", "t0");
    var b := Catalog("b", "u", "x", None, map[], true, 1, "t0", "t0");
    var cmd := UpdateCommand("b", "u", Some(""), Absent, None);
    assert "a" != "b" by { assert "a"[0] != "b"[0]; }
    assert "" != "x";
    GetCatalogByIdExact([a, b], "b", "u");
    assert [a, b][1] == b;
    var t' := UpdateCatalog(Up, [a, b], cmd, "t1").value.0;
    assert t'[0] == a;
    assert t'[1].name == "" && t'[1].isActive;
  }

  lemma DeleteEvolves(t: Table, cmd: DeleteCommand, now: string)
    requires DeleteCatalog(Up, t, cmd, now).Success?
    ensures Evolves(t, DeleteCatalog(Up, t, cmd, now).value)
    ensures UniqueIds(t) ==> UniqueIds(DeleteCatalog(Up, t, cmd, now).value)
    ensures NamesUnique(t) ==> NamesUnique(DeleteCatalog(Up, t, cmd, now).value)
  {
  }
}

=== FILE: catalogs_route.dfy ===
/** The `/api/catalogs` endpoint (src/pages/api/catalogs/index.ts): GET
    lists the caller's catalogs and POST creates one, both for demo users
    only; any other method is answered 405. A request is served against one
    snapshot of the world: the identity service, the store's health, the
    membership tables, the catalog table, the collation, the id the store
    would assign to an insert, and the clock. */
module CatalogsRoute {
  import opened Wrappers
  import opened Entities
  import opened AuthMiddleware
  import opened ErrorMiddleware
  import opened CatalogSchemas
  import opened CatalogService
  import Text
  import Seqs

  /** The request body as `request.json()` sees it: parsed JSON, or text
      that is not JSON, which makes the parse throw with `message`. */
  datatype RequestBody = JsonBody(value: Json) | MalformedBody(message: string)

  /** `query` is the input the list-query schema validates; which URL
      parameters actually reach it is not part of this model. */
  datatype Request = Request(verb: string, authorization: Option<string>, query: QueryInput, body: RequestBody)

  /** `authDb` is the store's health during the authentication lookups and
      `db` during the service's queries, which are separate round trips. */
  datatype World = World(
    identity: string -> Verification,
    authDb: Backend,
    db: Backend,
    directory: Directory,
    catalogs: Table,
    collation: Collation,
    newId: string,
    now: string)

  /** How a handler finished, and the catalog table afterwards. */
  datatype Step = Step(outcome: Outcome, catalogs: Table)

  const MethodNotAllowedBody := PlainError("Method not allowed")
  const OwnerMissing := "Demo user not found or inactive"

  /** The only API errors a handler raises are the guards' 401 and 403. */
  predicate GuardErrorsOnly(s: Step) {
    s.outcome.Raised? && s.outcome.thrown.ThrownApi? ==> s.outcome.thrown.e.statusCode in {401, 403}
  }

  /** The demo-user guard applied to the request's `Authorization` header. */
  function Caller(req: Request, w: World): Result<AuthenticatedUser, ApiError>
  {
    RequireDemoUser(req.authorization, w.identity, w.authDb, w.directory)
  }

  /** The create command `handlePost` builds for `user` from a validated body. */
  function CreateFor(user: AuthenticatedUser, v: CreateRequest): CreateCommand
  {
    CreateCommand(user.id, v.name, v.description, v.data)
  }

  /** Turns a thrown API error into a raised outcome. */
  function Raise<T>(r: Result<T, ApiError>): Outcome
    requires r.Failure?
  {
    Raised(ThrownApi(r.error))
  }

  /** `handleGet`: demo-user authentication, query validation, then the
      caller's page of catalogs with status 200. Nothing is written. */
  function HandleGet(req: Request, w: World): (s: Step)
    ensures s.catalogs == w.catalogs
    ensures GuardErrorsOnly(s)
    ensures s.outcome.Returned? ==>
      var user := Caller(req, w);
      var q := ValidateListQuery(req.query);
      && user.Success? && q.Success? && s.outcome.response.status == 200
      && s.outcome.response.body.ListBody?
      && GetCatalogs(w.db, w.catalogs, w.collation, user.value.id, q.value) == Success(s.outcome.response.body.list)
    ensures Caller(req, w).Failure? ==> s.outcome == Raised(ThrownApi(Caller(req, w).error))
    ensures Caller(req, w).Success? && ValidateListQuery(req.query).Failure? ==>
      s.outcome == Raised(ThrownValidation(ValidateListQuery(req.query).error))
    ensures Caller(req, w).Success? && ValidateListQuery(req.query).Success? && w.db.Up? ==>
      s.outcome == Returned(Response(200, ListBody(
        GetCatalogs(w.db, w.catalogs, w.collation, Caller(req, w).value.id, ValidateListQuery(req.query).value).value)))
    ensures Caller(req, w).Success? && ValidateListQuery(req.query).Success? && w.db.Down? ==>
      s.outcome == Raised(ThrownError("Failed to fetch catalogs: " + w.db.reason))
  {
    var auth := Caller(req, w);
    if auth.Failure? then Step(Raise(auth), w.catalogs)
    else
      var q := ValidateListQuery(req.query);
      if q.Failure? then Step(Raised(ThrownValidation(q.error)), w.catalogs)
      else
        var list := GetCatalogs(w.db, w.catalogs, w.collation, auth.value.id, q.value);
        if list.Failure? then Step(Raised(ThrownError(list.error)), w.catalogs)
        else Step(Returned(CreateSuccessResponse(ListBody(list.value), 200)), w.catalogs)
  }

  /** The part of `handlePost` after authentication: parse and validate the
      body, re-check the owner, then create the catalog for `user` with status 201. */
  function PostAfterAuth(body: RequestBody, user: AuthenticatedUser, w: World): (s: Step)
    ensures s.outcome.Raised? ==> s.catalogs == w.catalogs && !s.outcome.thrown.ThrownApi?
    ensures s.outcome.Returned? ==>
      && body.JsonBody? && ValidateCreateBody(body.value).Success?
      && ValidateDemoUser(w.db, w.directory, user.id)
      && s.outcome.response.status == 201 && s.outcome.response.body.CatalogBody?
      && s.outcome.response.body.catalog.demoUserId == user.id
      && s.catalogs == w.catalogs + [s.outcome.response.body.catalog]
    ensures body.MalformedBody? ==> s == Step(Raised(ThrownError(body.message)), w.catalogs)
    ensures body.JsonBody? && ValidateCreateBody(body.value).Failure? ==>
      s == Step(Raised(ThrownValidation(ValidateCreateBody(body.value).error)), w.catalogs)
    ensures body.JsonBody? && ValidateCreateBody(body.value).Success? && !ValidateDemoUser(w.db, w.directory, user.id) ==>
      s == Step(Raised(ThrownError(OwnerMissing)), w.catalogs)
    ensures body.JsonBody? && ValidateCreateBody(body.value).Success? && ValidateDemoUser(w.db, w.directory, user.id) ==>
      var created := CreateCatalog(w.db, w.catalogs, CreateFor(user, ValidateCreateBody(body.value).value), w.newId, w.now);
      && (created.Success? ==> s == Step(Returned(Response(201, CatalogBody(created.value.1))), created.value.0))
      && (created.Failure? ==> s == Step(Raised(ThrownError(created.error)), w.catalogs))
  {
    match body
    case MalformedBody(message) => Step(Raised(ThrownError(message)), w.catalogs)
    case JsonBody(v) =>
      var request := ValidateCreateBody(v);
      if request.Failure? then Step(Raised(ThrownValidation(request.error)), w.catalogs)
      else if !ValidateDemoUser(w.db, w.directory, user.id) then Step(Raised(ThrownError(OwnerMissing)), w.catalogs)
      else
        var created := CreateCatalog(w.db, w.catalogs, CreateFor(user, request.value), w.newId, w.now);
        if created.Failure? then Step(Raised(ThrownError(created.error)), w.catalogs)
        else Step(Returned(CreateSuccessResponse(CatalogBody(created.value.1), 201)), created.value.0)
  }

  /** `handlePost`: demo-user authentication before the body is looked at. */
  function HandlePost(req: Request, w: World): (s: Step)
    ensures Caller(req, w).Failure? ==>
      s == Step(Raised(ThrownApi(Caller(req, w).error)), w.catalogs)
    ensures Caller(req, w).Success? ==>
      s == PostAfterAuth(req.body, Caller(req, w).value, w)
  {
    var auth := Caller(req, w);
    if auth.Failure? then Step(Raise(auth), w.catalogs) else PostAfterAuth(req.body, auth.value, w)
  }

  /** `handler`: dispatch on the method (`verb`), exactly `GET` or `POST`. */
  function Handler(req: Request, w: World): (s: Step)
    ensures req.verb != "GET" && req.verb != "POST" ==>
      s == Step(Returned(Response(405, MethodNotAllowedBody)), w.catalogs)
    ensures req.verb == "GET" ==> s == HandleGet(req, w)
    ensures req.verb == "POST" ==> s == HandlePost(req, w)
    ensures GuardErrorsOnly(s)
  {
    if req.verb == "GET" then HandleGet(req, w)
    else if req.verb == "POST" then HandlePost(req, w)
    else Step(Returned(Response(405, MethodNotAllowedBody)), w.catalogs)
  }

  /** The exported `GET` and `POST`: the handler wrapped in the error
      normaliser. Returns the response and the catalog table afterwards. */
  function Serve(req: Request, w: World): (r: (Response, Table))
    ensures r == (WithErrorHandling(Handler(req, w).outcome, w.now), Handler(req, w).catalogs)
    ensures r.1 != w.catalogs ==> req.verb == "POST" && r.0.status == 201
    ensures r.0.status == 201 ==>
      && req.verb == "POST" && r.0.body.CatalogBody?
      && Caller(req, w).Success?
      && r.0.body.catalog.demoUserId == Caller(req, w).value.id
      && r.1 == w.catalogs + [r.0.body.catalog]
    ensures r.0.status == 200 ==>
      && req.verb == "GET" && r.0.body.ListBody?
      && Caller(req, w).Success?
      && forall k :: 0 <= k < |r.0.body.list.catalogs| ==>
           r.0.body.list.catalogs[k].demoUserId == Caller(req, w).value.id
           && r.0.body.list.catalogs[k].isActive
  {
    var s := Handler(req, w);
    if req.verb == "GET" && s.outcome.Returned? then
      ListedRowsOwned(req, w);
      (WithErrorHandling(s.outcome, w.now), s.catalogs)
    else (WithErrorHandling(s.outcome, w.now), s.catalogs)
  }

  /** Every row a successful GET returns is an active row of the caller. */
  lemma ListedRowsOwned(req: Request, w: World)
    requires req.verb == "GET" && w.db.Up?
    requires Caller(req, w).Success? && ValidateListQuery(req.query).Success?
    ensures var list := Handler(req, w).outcome.response.body.list;
      var user := Caller(req, w);
      user.Success? && forall k :: 0 <= k < |list.catalogs| ==> list.catalogs[k].demoUserId == user.value.id && list.catalogs[k].isActive
  {
    var user := Caller(req, w).value;
    var q := ValidateListQuery(req.query).value;
    var list := Handler(req, w).outcome.response.body.list;
    forall k | 0 <= k < |list.catalogs| ensures list.catalogs[k].demoUserId == user.id && list.catalogs[k].isActive {
      assert Selected(w.collation, user.id, q.search, list.catalogs[k]);
    }
  }

  /** Any method other than `GET` and `POST` gets 405 with the bare
      `{error}` body: no code, no timestamp, nothing written. */
  lemma OtherMethodsRejected(req: Request, w: World)
    requires req.verb != "GET" && req.verb != "POST"
    ensures Serve(req, w) == (Response(405, PlainError("Method not allowed")), w.catalogs)
  {
  }

  /** Authentication runs before the body is parsed: without a valid
      token every POST gets the same 401, whatever its body, malformed or not. */
  lemma UnauthenticatedPost(req: Request, w: World, other: RequestBody)
    requires req.verb == "POST"
    requires RequireAuth(req.authorization, w.identity, w.authDb, w.directory).Failure?
    ensures Serve(req, w).0.status == 401
    ensures Serve(req, w) == Serve(req.(body := other), w)
    ensures Serve(req, w).1 == w.catalogs
  {
  }

  /** An authenticated end user gets 403 on both methods before the store
      is consulted: the answer does not depend on the catalog table. */
  lemma EndUserForbidden(req: Request, w: World, others: Table)
    requires req.verb == "GET" || req.verb == "POST"
    requires RequireAuth(req.authorization, w.identity, w.authDb, w.directory).Success?
    requires RequireAuth(req.authorization, w.identity, w.authDb, w.directory).value.kind == EndUser
    ensures Serve(req, w).0.status == 403 && Serve(req, w).0.body.code.None?
    ensures Serve(req, w).1 == w.catalogs
    ensures Serve(req, w).0 == Serve(req, w.(catalogs := others)).0
  {
  }

  /** A valid POST whose owner fails the re-check is answered 404
      `NOT_FOUND`: the message contains "not found", which the error
      normaliser classifies. A store failure during the re-check reads as a
      missing owner too. Nothing is written. */
  lemma InactiveOwnerNotFound(req: Request, w: World)
    requires req.verb == "POST" && Caller(req, w).Success?
    requires req.body.JsonBody? && ValidateCreateBody(req.body.value).Success?
    requires w.db.Down? || !ActiveDemoUser(w.directory, Caller(req, w).value.id)
    ensures Serve(req, w) == (Response(404, ErrorBody(OwnerMissing, Some("NOT_FOUND"), None, w.now)), w.catalogs)
  {
    assert Handler(req, w) == Step(Raised(ThrownError(OwnerMissing)), w.catalogs);
    OwnerMissingIsNotFound(w.now);
  }

  lemma OwnerMissingIsNotFound(now: string)
    ensures HandleError(ThrownError(OwnerMissing), now) == CreateErrorResponse(ApiError(OwnerMissing, 404, Some("NOT_FOUND")), None, now)
  {
    assert OwnerMissing[10..19] == "not found";
    assert Text.OccursAt("not found", OwnerMissing, 10);
  }

  /** The name conflict maps to 409 `CONFLICT`: its message contains
      "already exists" and not "not found". */
  lemma NameTakenIsConflict(now: string)
    ensures HandleError(ThrownError(NameTaken), now) == CreateErrorResponse(ApiError(NameTaken, 409, Some("CONFLICT")), None, now)
  {
    assert NameTaken[23..37] == "already exists";
    assert Text.OccursAt("already exists", NameTaken, 23);
    assert "not found"[4] == 'f';
    Text.AbsentChar("not found", NameTaken, 4);
  }

  /** A valid POST from an active demo user whose name an active catalog
      of theirs already has is answered 409 `CONFLICT` with the service's
      message, and nothing is written. */
  lemma DuplicateNameConflict(req: Request, w: World)
    requires req.verb == "POST" && Caller(req, w).Success?
    requires req.body.JsonBody? && ValidateCreateBody(req.body.value).Success?
    requires w.db.Up? && ActiveDemoUser(w.directory, Caller(req, w).value.id)
    requires NamesUnique(w.catalogs)
    requires exists i :: 0 <= i < |w.catalogs| && ActiveNamed(w.catalogs[i], Caller(req, w).value.id, ValidateCreateBody(req.body.value).value.name)
    ensures Serve(req, w) == (Response(409, ErrorBody(NameTaken, Some("CONFLICT"), None, w.now)), w.catalogs)
  {
    var cmd := CreateFor(Caller(req, w).value, ValidateCreateBody(req.body.value).value);
    CreateConflictExact(w.catalogs, cmd, w.newId, w.now);
    assert Handler(req, w) == Step(Raised(ThrownError(NameTaken)), w.catalogs);
    NameTakenIsConflict(w.now);
  }

  /** Without a valid token a GET gets the guard's 401 envelope, and nothing is written. */
  lemma UnauthenticatedGet(req: Request, w: World)
    requires req.verb == "GET"
    requires RequireAuth(req.authorization, w.identity, w.authDb, w.directory).Failure?
    ensures Serve(req, w) == (CreateErrorResponse(RequireAuth(req.authorization, w.identity, w.authDb, w.directory).error, None, w.now), w.catalogs)
    ensures Serve(req, w).0.status == 401
  {
  }

  /** An authorised GET with an invalid query gets 400 `VALIDATION_ERROR`
      with the query issues as details, and nothing is written. */
  lemma InvalidQueryRejected(req: Request, w: World)
    requires req.verb == "GET" && Caller(req, w).Success?
    requires ValidateListQuery(req.query).Failure?
    ensures Serve(req, w) == (HandleValidationError(ValidateListQuery(req.query).error, w.now), w.catalogs)
    ensures Serve(req, w).0.status == 400
  {
  }

  /** When authentication and the owner re-check see the same store, a
      caller that passed the demo-user guard is always an active demo user,
      so the re-check cannot fail. */
  lemma AuthorisedOwnerIsActive(req: Request, w: World)
    requires w.authDb == w.db
    requires Caller(req, w).Success?
    ensures ValidateDemoUser(w.db, w.directory, Caller(req, w).value.id)
  {
  }

  /** A body with an empty name and empty catalog data is rejected with 400
      `VALIDATION_ERROR`, with details under both field names and nothing written. */
  lemma EmptyFieldsRejected(req: Request, w: World)
    requires req.verb == "POST"
    requires Caller(req, w).Success?
    requires req.body == JsonBody(EmptyFieldsBody)
    ensures Serve(req, w).0.status == 400
    ensures Serve(req, w).0.body.code == Some("VALIDATION_ERROR")
    ensures Serve(req, w).0.body.details.Some? && Serve(req, w).0.body.details.value.Keys == {"name", "catalog_data"}
    ensures Serve(req, w).1 == w.catalogs
  {
    EmptyFieldsIssues();
    var issues := ValidateCreateBody(EmptyFieldsBody).error;
    assert Handler(req, w) == Step(Raised(ThrownValidation(issues)), w.catalogs);
  }

  const EmptyFieldsBody := JObj(map["name" := JStr(""), "catalog_data" := JObj(map[])])

  /** The empty-fields body fails on exactly its name and its catalog data. */
  lemma EmptyFieldsIssues()
    ensures ValidateCreateBody(EmptyFieldsBody).Failure?
    ensures (set i | 0 <= i < |ValidateCreateBody(EmptyFieldsBody).error| :: PathKey(ValidateCreateBody(EmptyFieldsBody).error[i].path))
         == {"name", "catalog_data"}
  {
    var body := EmptyFieldsBody;
    assert !NameFits(Lookup(body.fields, "name"));
    assert !NonEmptyRecord(Lookup(body.fields, "catalog_data"));
    assert DescriptionFits(Lookup(body.fields, "description"));
    assert FailingCreateFields(body.fields) == {["name"], ["catalog_data"]};
    CreateReportsEveryField(body);
    PathKeys(ValidateCreateBody(body).error);
  }

  /** The details keys of issues whose paths are single field names are those names. */
  lemma PathKeys(issues: seq<Issue>)
    requires Paths(issues) == {["name"], ["catalog_data"]}
    ensures (set i | 0 <= i < |issues| :: PathKey(issues[i].path)) == {"name", "catalog_data"}
  {
    var keys := set i | 0 <= i < |issues| :: PathKey(issues[i].path);
    forall i | 0 <= i < |issues| ensures PathKey(issues[i].path) in {"name", "catalog_data"} {
      assert issues[i].path in Paths(issues);
    }
    assert ["name"] in Paths(issues);
    var a :| 0 <= a < |issues| && issues[a].path == ["name"];
    assert PathKey(issues[a].path) == "name";
    assert ["catalog_data"] in Paths(issues);
    var b :| 0 <= b < |issues| && issues[b].path == ["catalog_data"];
    assert PathKey(issues[b].path) == "catalog_data";
  }

  /** A GET whose query carries no parameters lists the first page of up to
      50 catalogs, newest first when the collation orders creation times. */
  lemma DefaultListing(req: Request, w: World)
    requires req.verb == "GET"
    requires req.query == QueryInput(None, None, None, None, None)
    requires Caller(req, w).Success?
    requires w.db.Up?
    ensures Serve(req, w).0.status == 200
    ensures Serve(req, w).0.body.list.pagination.page == 1
    ensures Serve(req, w).0.body.list.pagination.limit == 50
    ensures |Serve(req, w).0.body.list.catalogs| <= 50
    ensures Coherent(w.collation) ==>
      Seqs.Sorted(Serve(req, w).0.body.list.catalogs, Precedes(w.collation, CreatedAt, Desc))
  {
    var q := ValidateListQuery(req.query);
    assert q.Success?;
    if Coherent(w.collation) {
      PageSorted(w.db, w.catalogs, w.collation, Caller(req, w).value.id, q.value);
    }
  }

  /** A GET with a well-formed bearer token of an active demo user and a
      valid query, with the store up, answers 200 with that user's page of
      the listing and writes nothing. */
  lemma DemoUserListing(req: Request, w: World, t: string)
    requires req.verb == "GET" && req.authorization == Some("Bearer " + t) && t != "" && ' ' !in t
    requires w.authDb.Up? && w.db.Up?
    requires w.identity(t).Verified? && ActiveDemoUser(w.directory, w.identity(t).id)
    requires ValidateListQuery(req.query).Success?
    ensures Serve(req, w) == (Response(200, ListBody(
      GetCatalogs(Up, w.catalogs, w.collation, w.identity(t).id, ValidateListQuery(req.query).value).value)), w.catalogs)
  {
    DemoUserAccepted(t, w.identity, w.authDb, w.directory);
  }

  /** A POST with a well-formed bearer token of an active demo user and a
      valid body, against a store that is up, where the owner has no active
      catalog of that (trimmed) name and the new id is unused, answers 201
      with the inserted row and appends exactly that row. */
  lemma DemoUserCreates(req: Request, w: World, t: string)
    requires req.verb == "POST" && req.authorization == Some("Bearer " + t) && t != "" && ' ' !in t
    requires w.authDb.Up? && w.db.Up?
    requires w.identity(t).Verified? && ActiveDemoUser(w.directory, w.identity(t).id)
    requires req.body.JsonBody? && ValidateCreateBody(req.body.value).Success?
    requires forall i :: 0 <= i < |w.catalogs| ==>
      w.catalogs[i].id != w.newId && !ActiveNamed(w.catalogs[i], w.identity(t).id, ValidateCreateBody(req.body.value).value.name)
    ensures var v := ValidateCreateBody(req.body.value).value;
      var row := Catalog(w.newId, w.identity(t).id, v.name, StoredDescription(v.description), v.data, true, 1, w.now, w.now);
      Serve(req, w) == (Response(201, CatalogBody(row)), w.catalogs + [row])
  {
    DemoUserAccepted(t, w.identity, w.authDb, w.directory);
  }
}

=== FILE: entities.dfy ===
/** The catalog record, its command shapes and list envelope
    (src/types.ts), the membership tables the auth layer reads, the decoded
    JSON values request bodies and catalog payloads are made of, and the
    store's health. */
module Entities {
  import opened Wrappers

  /** A JavaScript number as far as validation can tell it apart. */
  datatype Num = Finite(r: real) | NaN | Infinite(positive: bool)

  /** A decoded JSON value (`catalog_data` values and request bodies). */
  datatype Json =
    | JNull
    | JBool(b: bool)
    | JNum(n: Num)
    | JStr(s: string)
    | JArr(items: seq<Json>)
    | JObj(fields: map<string, Json>)

  /** An optional, nullable input field: absent (`undefined`), `null`, or a value. */
  datatype Field<+T> = Absent | Null | Given(value: T)

  /** One row of `product_catalogs` as the service returns it (`CatalogDTO`). */
  datatype Catalog = Catalog(
    id: string,
    demoUserId: string,
    name: string,
    description: Option<string>,
    data: map<string, Json>,
    isActive: bool,
    version: int,
    createdAt: string,
    updatedAt: string)

  /** The `product_catalogs` table in the store's physical row order. */
  type Table = seq<Catalog>

  /** Row ids are distinct (the table's primary key). */
  predicate UniqueIds(t: Table) {
    forall i, j :: 0 <= i < j < |t| ==> t[i].id != t[j].id
  }

  datatype SortField = CreatedAt | UpdatedAt | Name
  datatype SortOrder = Asc | Desc

  /** A validated list query (`CatalogListQuery`). */
  datatype ListQuery = ListQuery(
    page: int,
    limit: int,
    search: Option<string>,
    sort: SortField,
    order: SortOrder)

  datatype Pagination = Pagination(page: int, limit: int, total: nat, totalPages: nat)

  /** `CatalogListResponseDTO`. */
  datatype CatalogList = CatalogList(catalogs: seq<Catalog>, pagination: Pagination)

  datatype CreateCommand = CreateCommand(
    demoUserId: string,
    name: string,
    description: Field<string>,
    data: map<string, Json>)

  datatype UpdateCommand = UpdateCommand(
    catalogId: string,
    demoUserId: string,
    name: Option<string>,
    description: Field<string>,
    data: Option<map<string, Json>>)

  datatype DeleteCommand = DeleteCommand(catalogId: string, demoUserId: string)

  /** A row of `demo_users`, keyed by user id. */
  datatype DemoUserRow = DemoUserRow(email: string, name: string, isActive: bool)

  /** A row of `end_users`, keyed by user id; the name column is nullable. */
  datatype EndUserRow = EndUserRow(email: string, name: Option<string>, isActive: bool)

  datatype Directory = Directory(
    demoUsers: map<string, DemoUserRow>,
    endUsers: map<string, EndUserRow>)

  predicate ActiveDemoUser(dir: Directory, id: string) {
    id in dir.demoUsers && dir.demoUsers[id].isActive
  }

  predicate ActiveEndUser(dir: Directory, id: string) {
    id in dir.endUsers && dir.endUsers[id].isActive
  }

  /** Whether the store answers queries during a request; a failing store
      reports `reason` as its error message. */
  datatype Backend = Up | Down(reason: string)

  /** One schema violation: the field path and a human-readable message. */
  datatype Issue = Issue(path: seq<string>, message: string)
}

=== FILE: error_middleware.dfy ===
/** Error normalisation (src/lib/middleware/error.middleware.ts): every
    thrown value becomes one JSON error response. Logging is left out; the
    clock value `now` stamps the envelope. */
module ErrorMiddleware {
  import opened Wrappers
  import opened Entities
  import opened AuthMiddleware
  import Text

  /** What a handler can throw: an `APIError`, a `ZodError` with its issues,
      any other `Error` with its message, or a value that is not an `Error`. */
  datatype Thrown =
    | ThrownApi(e: ApiError)
    | ThrownValidation(issues: seq<Issue>)
    | ThrownError(message: string)
    | ThrownValue

  /** How a handler finished: with a response, or by throwing. */
  datatype Outcome = Returned(response: Response) | Raised(thrown: Thrown)

  datatype CommonErrorKind =
    | Unauthorized | Forbidden | NotFound | MethodNotAllowed | Conflict | ValidationError | InternalError

  /** `CommonErrors`: one fixed message and one (status, code) pair per kind. */
  function CommonError(k: CommonErrorKind): ApiError
  {
    match k
    case Unauthorized => ApiError("Unauthorized", 401, Some("UNAUTHORIZED"))
    case Forbidden => ApiError("Forbidden", 403, Some("FORBIDDEN"))
    case NotFound => ApiError("Resource not found", 404, Some("NOT_FOUND"))
    case MethodNotAllowed => ApiError("Method not allowed", 405, Some("METHOD_NOT_ALLOWED"))
    case Conflict => ApiError("Resource already exists", 409, Some("CONFLICT"))
    case ValidationError => ApiError("Validation failed", 400, Some("VALIDATION_ERROR"))
    case InternalError => ApiError("Internal server error", 500, Some("INTERNAL_ERROR"))
  }

  /** No two common errors share a status or a code, and each has a code. */
  lemma CommonErrorsDistinct(k1: CommonErrorKind, k2: CommonErrorKind)
    ensures CommonError(k1).code.Some?
    ensures k1 != k2 ==> CommonError(k1).statusCode != CommonError(k2).statusCode
    ensures k1 != k2 ==> CommonError(k1).code != CommonError(k2).code
  {
  }

  const UnknownError := ApiError("An unexpected error occurred", 500, Some("UNKNOWN_ERROR"))

  /** An issue path joined with dots, as the details key. */
  function PathKey(path: seq<string>): string
  {
    Text.Join(path, '.')
  }

  /** The details map of a validation failure: each issue written under its
      path key in order, so a later issue overwrites an earlier one. */
  function Details(issues: seq<Issue>): (d: map<string, string>)
    ensures d.Keys == set i | 0 <= i < |issues| :: PathKey(issues[i].path)
    decreases |issues|
  {
    if |issues| == 0 then map[]
    else
      var n := |issues| - 1;
      var prefix := issues[..n];
      assert forall i :: 0 <= i < n ==> prefix[i] == issues[i];
      Details(prefix)[PathKey(issues[n].path) := issues[n].message]
  }

  /** The message kept under a path key is that of the last issue with that key. */
  lemma {:induction false} DetailsLastWins(issues: seq<Issue>, i: int)
    requires 0 <= i < |issues|
    requires forall j :: i < j < |issues| ==> PathKey(issues[j].path) != PathKey(issues[i].path)
    ensures PathKey(issues[i].path) in Details(issues)
    ensures Details(issues)[PathKey(issues[i].path)] == issues[i].message
    decreases |issues|
  {
    var n := |issues| - 1;
    if i < n {
      var prefix := issues[..n];
      assert prefix[i] == issues[i];
      forall j | i < j < |prefix| ensures PathKey(prefix[j].path) != PathKey(prefix[i].path) {
        assert prefix[j] == issues[j];
      }
      DetailsLastWins(prefix, i);
    }
  }

  /** `handleValidationError`: a 400 `VALIDATION_ERROR` whose details hold
      each issue's message under its path key. */
  function HandleValidationError(issues: seq<Issue>, now: string): (r: Response)
    ensures r.status == 400 && r.body.ErrorBody? && r.body.timestamp == now
    ensures r.body.error == "Validation failed" && r.body.code == Some("VALIDATION_ERROR")
    ensures r.body.details == Some(Details(issues))
  {
    CreateErrorResponse(CommonError(ValidationError), Some(Details(issues)), now)
  }

  /** `handleGenericError`: ordered, case-sensitive substring tests on the
      message, which is kept; anything else is a 500 that hides it. */
  function HandleGenericError(message: string, now: string): (r: Response)
    ensures Text.Occurs("not found", message) ==>
      r == CreateErrorResponse(ApiError(message, 404, Some("NOT_FOUND")), None, now)
    ensures !Text.Occurs("not found", message) && Text.Occurs("already exists", message) ==>
      r == CreateErrorResponse(ApiError(message, 409, Some("CONFLICT")), None, now)
    ensures (!Text.Occurs("not found", message) && !Text.Occurs("already exists", message)
             && (Text.Occurs("permission", message) || Text.Occurs("unauthorized", message))) ==>
      r == CreateErrorResponse(ApiError(message, 403, Some("FORBIDDEN")), None, now)
    ensures (!Text.Occurs("not found", message) && !Text.Occurs("already exists", message)
             && !Text.Occurs("permission", message) && !Text.Occurs("unauthorized", message)) ==>
      r == CreateErrorResponse(CommonError(InternalError), None, now)
  {
    if Text.Includes(message, "not found") then
      CreateErrorResponse(ApiError(message, 404, Some("NOT_FOUND")), None, now)
    else if Text.Includes(message, "already exists") then
      CreateErrorResponse(ApiError(message, 409, Some("CONFLICT")), None, now)
    else if Text.Includes(message, "permission") || Text.Includes(message, "unauthorized") then
      CreateErrorResponse(ApiError(message, 403, Some("FORBIDDEN")), None, now)
    else
      CreateErrorResponse(CommonError(InternalError), None, now)
  }

  /** `handleUnknownError`: a 500 `UNKNOWN_ERROR` that says nothing of the value thrown. */
  function HandleUnknownError(now: string): (r: Response)
    ensures r.status == 500 && r.body.ErrorBody? && r.body.timestamp == now
    ensures r.body.error == "An unexpected error occurred" && r.body.code == Some("UNKNOWN_ERROR")
    ensures r.body.details.None?
  {
    CreateErrorResponse(UnknownError, None, now)
  }

  /** `ErrorHandler.handleError`: an `APIError` passes through first, then a
      validation failure, then any `Error`, then any other value. */
  function HandleError(t: Thrown, now: string): (r: Response)
    ensures r.body.ErrorBody? && r.body.timestamp == now
    ensures t.ThrownApi? ==> ReadError(r) == Some((t.e, None))
    ensures t.ThrownValidation? ==>
      r.status == 400 && r.body.code == Some("VALIDATION_ERROR") && r.body.error == "Validation failed"
      && r.body.details.Some? && r.body.details.value.Keys == set i | 0 <= i < |t.issues| :: PathKey(t.issues[i].path)
    ensures !t.ThrownValidation? ==> r.body.details.None?
    ensures t.ThrownError? && r.status != 500 ==> r.body.error == t.message
    ensures !t.ThrownApi? && r.status == 500 ==>
      r.body.error == "Internal server error" || r.body.error == "An unexpected error occurred"
    ensures t.ThrownValue? ==> r.status == 500 && r.body.code == Some("UNKNOWN_ERROR")
    ensures !t.ThrownApi? ==> r.status in {400, 403, 404, 409, 500}
    ensures t.ThrownValidation? ==> r.body.details == Some(Details(t.issues))
    ensures t.ThrownError? ==> r == HandleGenericError(t.message, now)
    ensures t.ThrownValue? ==> r == CreateErrorResponse(UnknownError, None, now)
  {
    match t
    case ThrownApi(e) => CreateErrorResponse(e, None, now)
    case ThrownValidation(issues) => HandleValidationError(issues, now)
    case ThrownError(message) => HandleGenericError(message, now)
    case ThrownValue => HandleUnknownError(now)
  }

  /** Every response the normaliser builds itself pairs its status and code
      as `CommonErrors` does, except the 500 `UNKNOWN_ERROR` for non-errors. */
  lemma NormalisedCodesAgree(t: Thrown, now: string)
    requires !t.ThrownApi?
    ensures var r := HandleError(t, now);
      (r.status == 500 && r.body.code == Some("UNKNOWN_ERROR"))
      || exists k :: CommonError(k).statusCode == r.status && CommonError(k).code == r.body.code
  {
    var r := HandleError(t, now);
    match t
    case ThrownValidation(_) =>
      assert CommonError(ValidationError).statusCode == r.status;
    case ThrownError(m) =>
      if r.status == 404 {
        assert CommonError(NotFound).code == r.body.code;
      } else if r.status == 409 {
        assert CommonError(Conflict).code == r.body.code;
      } else if r.status == 403 {
        assert CommonError(Forbidden).code == r.body.code;
      } else {
        assert CommonError(InternalError).code == r.body.code;
      }
    case ThrownValue =>
  }

  /** An `APIError` is not reclassified by its message: one saying "not
      found" with status 401 still answers 401. */
  lemma ApiErrorBeforeGeneric(message: string, now: string)
    requires Text.Occurs("not found", message)
    ensures HandleError(ThrownApi(ApiError(message, 401, None)), now).status == 401
    ensures HandleError(ThrownError(message), now).status == 404
  {
  }

  /** `withErrorHandling`: a handler's response passes through unchanged;
      anything it throws becomes `handleError`'s response. */
  function WithErrorHandling(o: Outcome, now: string): (r: Response)
    ensures o.Returned? ==> r == o.response
    ensures o.Raised? ==> r.body.ErrorBody? && r.body.timestamp == now
    ensures o.Raised? && o.thrown.ThrownApi? ==> r.status == o.thrown.e.statusCode
    ensures o.Raised? ==> r == HandleError(o.thrown, now)
  {
    match o
    case Returned(response) => response
    case Raised(thrown) => HandleError(thrown, now)
  }
}

=== FILE: seqs.dfy ===
/** Sequence operations the store's query engine performs on a table:
    filtering by a row predicate, ordering by a comparator, and taking an
    offset/limit window. */
module Seqs {

  /** The elements of `s` that satisfy `p`, in their original order. */
  function Filter<T(!new)>(s: seq<T>, p: T -> bool): (r: seq<T>)
    ensures |r| <= |s|
    ensures forall i :: 0 <= i < |r| ==> p(r[i]) && r[i] in s
    ensures forall i :: 0 <= i < |s| && p(s[i]) ==> s[i] in r
    decreases |s|
  {
    if |s| == 0 then []
    else
      var rest := Filter(s[1..], p);
      assert s == [s[0]] + s[1..];
      if p(s[0]) then [s[0]] + rest else rest
  }

  /** The filter keeps every passing element as often as it occurs, and no other. */
  lemma {:induction false} FilterCounts<T(!new)>(s: seq<T>, p: T -> bool, x: T)
    ensures multiset(Filter(s, p))[x] == if p(x) then multiset(s)[x] else 0
    decreases |s|
  {
    if |s| > 0 {
      FilterCounts(s[1..], p, x);
      assert s == [s[0]] + s[1..];
      assert multiset(s) == multiset{s[0]} + multiset(s[1..]);
    }
  }

  /** Nothing survives a filter that no element passes. */
  lemma FilterNone<T(!new)>(s: seq<T>, p: T -> bool)
    requires forall i :: 0 <= i < |s| ==> !p(s[i])
    ensures Filter(s, p) == []
  {
  }

  /** A filter that at most one position of `s` passes keeps at most one element. */
  lemma {:induction false} FilterAtMostOne<T(!new)>(s: seq<T>, p: T -> bool)
    requires forall i, j :: 0 <= i < j < |s| && p(s[i]) ==> !p(s[j])
    ensures |Filter(s, p)| <= 1
    decreases |s|
  {
    if |s| > 0 {
      if p(s[0]) {
        FilterNone(s[1..], p);
      } else {
        FilterAtMostOne(s[1..], p);
      }
    }
  }

  /** `le` orders every pair and is transitive. */
  ghost predicate TotalPreorder<T(!new)>(le: (T, T) -> bool) {
    && (forall a, b :: le(a, b) || le(b, a))
    && (forall a, b, c :: le(a, b) && le(b, c) ==> le(a, c))
  }

  predicate Sorted<T>(s: seq<T>, le: (T, T) -> bool) {
    forall i, j :: 0 <= i < j < |s| ==> le(s[i], s[j])
  }

  /** Places `x` before the first element it precedes. */
  function Insert<T>(x: T, s: seq<T>, le: (T, T) -> bool): (r: seq<T>)
    ensures multiset(r) == multiset(s) + multiset{x}
    decreases |s|
  {
    if |s| == 0 then [x]
    else if le(x, s[0]) then [x] + s
    else
      assert s == [s[0]] + s[1..];
      [s[0]] + Insert(x, s[1..], le)
  }

  /** Insertion sort; equal elements keep their order. */
  function SortBy<T>(s: seq<T>, le: (T, T) -> bool): (r: seq<T>)
    ensures multiset(r) == multiset(s)
    decreases |s|
  {
    if |s| == 0 then []
    else
      assert s == [s[0]] + s[1..];
      Insert(s[0], SortBy(s[1..], le), le)
  }

  lemma {:induction false} InsertSorted<T(!new)>(x: T, s: seq<T>, le: (T, T) -> bool)
    requires TotalPreorder(le)
    requires Sorted(s, le)
    ensures Sorted(Insert(x, s, le), le)
    decreases |s|
  {
    if |s| > 0 && !le(x, s[0]) {
      var tail := Insert(x, s[1..], le);
      InsertSorted(x, s[1..], le);
      forall k | 0 <= k < |tail| ensures le(s[0], tail[k]) {
        assert tail[k] in multiset(tail);
        if tail[k] != x {
          assert tail[k] in multiset(s[1..]);
          var j :| 0 <= j < |s[1..]| && s[1..][j] == tail[k];
          assert s[1..][j] == s[j + 1];
        }
      }
      var r := [s[0]] + tail;
      forall i, j | 0 <= i < j < |r| ensures le(r[i], r[j]) {
        if i > 0 {
          assert r[i] == tail[i - 1] && r[j] == tail[j - 1];
        }
      }
    }
  }

  /** `SortBy` yields a sorted permutation of its input. */
  lemma {:induction false} SortBySorted<T(!new)>(s: seq<T>, le: (T, T) -> bool)
    requires TotalPreorder(le)
    ensures Sorted(SortBy(s, le), le)
    ensures multiset(SortBy(s, le)) == multiset(s)
    decreases |s|
  {
    if |s| > 0 {
      SortBySorted(s[1..], le);
      InsertSorted(s[0], SortBy(s[1..], le), le);
    }
  }

  /** The `limit` elements of `s` from position `offset` on, clamped to the
      end of `s` (an SQL `OFFSET offset LIMIT limit`). */
  function Window<T>(s: seq<T>, offset: nat, limit: nat): (r: seq<T>)
    ensures |r| == if offset >= |s| then 0 else if limit < |s| - offset then limit else |s| - offset
    ensures forall k :: 0 <= k < |r| ==> r[k] == s[offset + k]
  {
    if offset >= |s| then []
    else if offset + limit <= |s| then s[offset..offset + limit]
    else s[offset..]
  }
}

=== FILE: text.dfy ===
/** The JavaScript string operations the pipeline relies on:
    `includes`, `split` on a one-character separator, `join`, and `trim`. */
module Text {

  /** `sub` sits in `s` starting at position `i`. */
  predicate OccursAt(sub: string, s: string, i: int) {
    0 <= i <= |s| - |sub| && s[i..i + |sub|] == sub
  }

  /** `sub` is a contiguous block of `s`; the empty string occurs everywhere. */
  ghost predicate Occurs(sub: string, s: string) {
    exists i :: OccursAt(sub, s, i)
  }

  lemma OccursStep(sub: string, s: string)
    requires |sub| <= |s| && |s| > 0
    ensures Occurs(sub, s) <==> OccursAt(sub, s, 0) || Occurs(sub, s[1..])
  {
    if Occurs(sub, s) && !OccursAt(sub, s, 0) {
      var i :| OccursAt(sub, s, i);
      assert s[1..][i - 1..i - 1 + |sub|] == s[i..i + |sub|];
      assert OccursAt(sub, s[1..], i - 1);
    }
    if Occurs(sub, s[1..]) {
      var i :| OccursAt(sub, s[1..], i);
      assert s[1..][i..i + |sub|] == s[i + 1..i + 1 + |sub|];
      assert OccursAt(sub, s, i + 1);
    }
  }

  /** A string in which some character of `sub` never appears does not contain `sub`. */
  lemma AbsentChar(sub: string, s: string, k: int)
    requires 0 <= k < |sub| && sub[k] !in s
    ensures !Occurs(sub, s)
  {
    forall i | 0 <= i <= |s| - |sub| ensures !OccursAt(sub, s, i) {
      assert s[i..i + |sub|][k] == s[i + k];
    }
  }

  /** JavaScript `s.includes(sub)`: a case-sensitive substring test. */
  function Includes(s: string, sub: string): (b: bool)
    ensures b <==> Occurs(sub, s)
    decreases |s|
  {
    if |s| < |sub| then
      assert !Occurs(sub, s) by {
        forall i ensures !OccursAt(sub, s, i) { }
      }
      false
    else if s[..|sub|] == sub then
      assert OccursAt(sub, s, 0);
      true
    else if |s| == 0 then
      false
    else
      OccursStep(sub, s);
      Includes(s[1..], sub)
  }

  /** JavaScript `parts.join(sep)` for a one-character separator. */
  function Join(parts: seq<string>, sep: char): string
  {
    if |parts| == 0 then ""
    else if |parts| == 1 then parts[0]
    else parts[0] + [sep] + Join(parts[1..], sep)
  }

  /** JavaScript `s.split(sep)` for a one-character separator: the pieces
      between consecutive separators, none of which holds the separator. */
  function Split(s: string, sep: char): (parts: seq<string>)
    ensures |parts| >= 1
    ensures forall i :: 0 <= i < |parts| ==> sep !in parts[i]
    decreases |s|
  {
    if |s| == 0 then [""]
    else
      var rest := Split(s[1..], sep);
      if s[0] == sep then [""] + rest
      else [[s[0]] + rest[0]] + rest[1..]
  }

  /** Joining the pieces back restores the string. */
  lemma {:induction false} JoinSplit(s: string, sep: char)
    ensures Join(Split(s, sep), sep) == s
    decreases |s|
  {
    if |s| > 0 {
      var rest := Split(s[1..], sep);
      JoinSplit(s[1..], sep);
      assert Join(rest, sep) == s[1..];
      var parts := Split(s, sep);
      if s[0] == sep {
        assert parts == [""] + rest;
        assert parts[1..] == rest;
        assert Join(parts, sep) == "" + [sep] + Join(rest, sep);
      } else {
        assert parts == [[s[0]] + rest[0]] + rest[1..];
        if |rest| == 1 {
          assert Join(parts, sep) == [s[0]] + rest[0];
        } else {
          assert parts[1..] == rest[1..];
          assert Join(rest, sep) == rest[0] + [sep] + Join(rest[1..], sep);
          assert Join(parts, sep) == ([s[0]] + rest[0]) + [sep] + Join(rest[1..], sep);
        }
      }
      assert [s[0]] + s[1..] == s;
    }
  }

  lemma {:induction false} SplitNoSeparator(s: string, sep: char)
    requires sep !in s
    ensures Split(s, sep) == [s]
    decreases |s|
  {
    if |s| > 0 {
      assert sep !in s[1..];
      SplitNoSeparator(s[1..], sep);
      assert [s[0]] + s[1..] == s;
    }
  }

  lemma {:induction false} SplitAfter(p: string, rest: string, sep: char)
    requires sep !in p
    ensures Split(p + [sep] + rest, sep) == [p] + Split(rest, sep)
    decreases |p|
  {
    var s := p + [sep] + rest;
    if |p| == 0 {
      assert s[1..] == rest;
    } else {
      assert s[1..] == p[1..] + [sep] + rest;
      assert sep !in p[1..];
      SplitAfter(p[1..], rest, sep);
      assert [p[0]] + p[1..] == p;
    }
  }

  /** Splitting undoes joining, for pieces that contain no separator. */
  lemma {:induction false} SplitJoin(parts: seq<string>, sep: char)
    requires |parts| >= 1
    requires forall i :: 0 <= i < |parts| ==> sep !in parts[i]
    ensures Split(Join(parts, sep), sep) == parts
    decreases |parts|
  {
    if |parts| == 1 {
      SplitNoSeparator(parts[0], sep);
    } else {
      SplitJoin(parts[1..], sep);
      SplitAfter(parts[0], Join(parts[1..], sep), sep);
      assert [parts[0]] + parts[1..] == parts;
    }
  }

  /** ECMAScript WhiteSpace and LineTerminator code points, which `trim` removes. */
  predicate IsWhitespace(c: char) {
    var n := c as int;
    n == 0x09 || n == 0x0A || n == 0x0B || n == 0x0C || n == 0x0D || n == 0x20
    || n == 0xA0 || n == 0x1680 || (0x2000 <= n <= 0x200A) || n == 0x2028 || n == 0x2029
    || n == 0x202F || n == 0x205F || n == 0x3000 || n == 0xFEFF
  }

  function TrimStart(s: string): (r: string)
    ensures |r| <= |s| && r == s[|s| - |r|..]
    ensures forall k :: 0 <= k < |s| - |r| ==> IsWhitespace(s[k])
    ensures r == [] || !IsWhitespace(r[0])
    decreases |s|
  {
    if |s| > 0 && IsWhitespace(s[0]) then TrimStart(s[1..]) else s
  }

  function TrimEnd(s: string): (r: string)
    ensures |r| <= |s| && r == s[..|r|]
    ensures forall k :: |r| <= k < |s| ==> IsWhitespace(s[k])
    ensures r == [] || !IsWhitespace(r[|r| - 1])
    decreases |s|
  {
    if |s| > 0 && IsWhitespace(s[|s| - 1]) then TrimEnd(s[..|s| - 1]) else s
  }

  /** JavaScript `s.trim()`: `s` without its leading and trailing white space. */
  function Trim(s: string): (r: string)
  {
    TrimEnd(TrimStart(s))
  }

  /** `r` is the block of `s` at `i` with only white space around it. */
  ghost predicate TrimWindow(s: string, r: string, i: int) {
    0 <= i <= i + |r| <= |s| && r == s[i..i + |r|]
    && (forall k :: 0 <= k < i ==> IsWhitespace(s[k]))
    && (forall k :: i + |r| <= k < |s| ==> IsWhitespace(s[k]))
  }

  /** `Trim` keeps a contiguous middle block of `s`, drops only white space
      around it, and leaves no white space at either end. */
  lemma TrimShape(s: string)
    ensures exists i :: TrimWindow(s, Trim(s), i)
    ensures Trim(s) == [] || (!IsWhitespace(Trim(s)[0]) && !IsWhitespace(Trim(s)[|Trim(s)| - 1]))
  {
    var a := TrimStart(s);
    var r := TrimEnd(a);
    var i := |s| - |a|;
    assert a == s[i..];
    TrimTail(s, a, r, i);
    assert r == Trim(s);
    assert TrimWindow(s, r, i);
    if r != [] {
      assert r[0] == a[0];
    }
  }

  /** The trailing white space `TrimEnd` drops from the suffix `a` of `s`
      is trailing white space of `s`. */
  lemma TrimTail(s: string, a: string, r: string, i: int)
    requires 0 <= i <= |s| && a == s[i..]
    requires |r| <= |a| && r == a[..|r|]
    requires forall k :: |r| <= k < |a| ==> IsWhitespace(a[k])
    ensures r == s[i..i + |r|]
    ensures forall k :: i + |r| <= k < |s| ==> IsWhitespace(s[k])
  {
    forall k | i + |r| <= k < |s| ensures IsWhitespace(s[k]) {
      assert s[k] == a[k - i];
    }
  }

  /** A string made only of white space trims to the empty string. */
  lemma TrimAllWhitespace(s: string)
    requires forall k :: 0 <= k < |s| ==> IsWhitespace(s[k])
    ensures Trim(s) == ""
  {
  }
}

=== FILE: wrappers.dfy ===
/** Failure-compatible Option and Result types used throughout the model.
    A `Result` failure stands for a thrown error; `:-` propagates it the way
    an `await` of a rejected promise does. */
module Wrappers {

  datatype Option<+T> = None | Some(value: T) {

    /** The value, or `default` when absent (JavaScript `x || default` on a non-empty value). */
    function GetOr(default: T): T {
      match this
      case Some(v) => v
      case None => default
    }
  }

  datatype Result<+R, +E> = Success(value: R) | Failure(error: E) {

    predicate IsFailure() {
      Failure?
    }

    function PropagateFailure<U>(): Result<U, E>
      requires Failure?
    {
      Failure(error)
    }

    function Extract(): R
      requires Success?
    {
      value
    }
  }
}
